=== FILE: README.md ===
# foodbudget: a Dafny model of the budget core

foodbudget is a household food-budget web application. The user sets a
monthly amount, a renewal day and the amount still available. They record
expenses by hand or from an analysed receipt. The application shows:

- how much of the budget is used;
- a forecast to the next renewal;
- a spending chart for the current billing period;
- a searchable list of expenses grouped by date.

This project models the logic under those screens as pure Dafny functions
over immutable data, and proves what that logic promises.

- `calendar.dfy` (`Calendar`): JavaScript `Date` in one time zone with
  86 400 000 ms days. `MkDate` is `new Date(y, m, d)`, including month -1,
  month 12 and day 0. `DateOf` gives `getFullYear`, `getMonth` and `getDate`.
- `renewal.dfy` (`Renewal`): the billing-period rule shared by
  `forecastExpenses` and `getDaysUntilRenewal`. It gives the last and next
  renewal and the days left until the next one.
- `budget_utils.dfy` (`BudgetUtils`): `filterExpensesByDateRange`,
  `calculateTotalExpenses`, `calculateDailyAverage`, `forecastExpenses`,
  `calculateBudgetUsagePercentage`, both copies of
  `groupExpensesByCategory`, and `groupExpensesByDate`.
- `date_text.dfy` (`DateText`): `formatDate`'s "DD-MM-YYYY" keys, the
  `split('-').reverse().join('-')` step the sort comparators apply to them,
  and reading "YYYY-MM-DD" back.
- `budget_context.dfy` (`BudgetContext`): the context's state and its three
  updates, as one transition function `Step`. The expense id that
  `Date.now()` would supply is an input.
- `fields.dfy`, `budget_form.dfy`, `expense_form.dfy`: form fields,
  validation, submission and typing, for the budget form and the expense
  form.
- `receipt_scanner.dfy` (`ReceiptScanner`): category normalisation, item
  edits and removal, and turning a saved receipt into one expense per item.
- `expense_chart.dfy`, `expense_list.dfy`, `budget_progress.dfy`: the pure
  parts of the chart, the list and the progress card.
- `lists.dfy`, `grouping.dfy`, `text.dfy`, `wrappers.dfy`, `records.dfy`:
  supporting definitions. These are filter, sum, stable sort and
  first-appearance dedup; the object-as-map reductions; case mapping,
  `includes` and number printing; `Option`; and the expense and budget
  records.

"Now" is a parameter wherever the source calls `new Date()`. One
computation that reads the clock several times gets a single reading (see
"## Left out"). The parsing of free-form date text (`new Date(text)`) is a
parameter too, given as `parseDate`.
Amounts are real numbers. A form field is its raw text together with the
number `isNaN` reads from it, or `None` where `isNaN` holds.

Two behaviours of the source are modelled as written and exhibited by
lemmas:

- **Shared ids lose money.** Saving a receipt calls `addExpense` once per
  item in a tight loop, so several expenses can get the same `Date.now()`
  id. `removeExpense` then drops every expense with that id but credits back
  only the first one's amount. `BudgetContext.SharedIdLosesAmount` shows two
  items of 1 and 2 that share an id: after removal the money left is -2
  instead of 0. This is why the balance invariant (`BudgetContext.BalanceKept`)
  and the add-then-remove round trip (`BudgetContext.AddThenRemove`) need a
  fresh id.
- **Late-day expenses drop off the chart.** The chart's period ends at the
  midnight that starts the day before the next renewal. An expense stamped
  later on that day is outside the chart
  (`ExpenseChart.LastDayOnlyAtMidnight`).

Renewal days 29 to 31 are not clamped and roll over into the next month
(`Renewal.LateRenewalDayOpensAfterToday`). The bounds on the period
therefore assume a renewal day from 1 to 28.

## Model

| member | source | states |
|---|---|---|
| Calendar.CeilDiv | client/src/utils/dateUtils.js:56 | `Math.ceil(a / b)` for a positive divisor: the least r with a <= r*b |
| Calendar.DateOf | client/src/utils/dateUtils.js:40-42 | the date read off an instant is a valid calendar date whose day number is the instant's day |
| Calendar.DateOfMkDate | client/src/components/Charts/ExpenseChart.jsx:36-47 | `new Date(y, m, d)` for d in 1..28 lands on day d of month m mod 12 of year y + m div 12, so month -1 and month 12 wrap into the neighbouring year |
| Calendar.DateOfDayNumber | client/src/utils/dateUtils.js:40-42 | reading the date of a valid date's own day number gives that date back |
| Calendar.MkDateMidnight | client/src/utils/budgetUtils.js:84-97 | `new Date(y, m, d)` is a midnight, on the day numbered from the start of month m |
| Renewal.DaysUntilRenewal | client/src/utils/dateUtils.js:38-56 | the counter is the number of whole days, rounded up, from now to the next renewal |
| Renewal.RenewalOrder | client/src/utils/budgetUtils.js:81-98 | for renewal day 1..28, the last renewal is at or before now and the next is after now |
| Renewal.LastRenewalDate | client/src/utils/budgetUtils.js:81-88 | the period opens on the renewal day of today's month, or of the previous month when today is earlier in the month |
| Renewal.NextRenewalDate | client/src/utils/dateUtils.js:46-52 | the period closes on the renewal day of today's month when today is earlier, otherwise of next month |
| Renewal.RenewalBracketsNow | client/src/utils/budgetUtils.js:81-98 | both renewals fall on the renewal day, in consecutive months, around now |
| Renewal.DaysUntilRenewalBounds | client/src/utils/dateUtils.js:46-56 | for renewal day 1..28 the counter is between 1 and 31 |
| Renewal.LateRenewalDayOpensAfterToday | client/src/utils/budgetUtils.js:82-88 | renewal day 30 on 1 March of a common year puts the "last" renewal on 2 March, after now |
| BudgetUtils.InRangeBounds | client/src/utils/budgetUtils.js:26-34 | the range test holds exactly when every given bound holds, both inclusive; a missing bound does not constrain |
| BudgetUtils.FilterByDateRange | client/src/utils/budgetUtils.js:22-35 | every kept expense lies within the bounds |
| BudgetUtils.FilterByDateRangeExact | client/src/utils/budgetUtils.js:22-35 | the filter keeps each in-range expense as often as it occurs and nothing else; with no bounds it keeps the whole list |
| BudgetUtils.FilterByDateRangeOrder | client/src/utils/budgetUtils.js:22-35 | the filter keeps the original order: one expense is kept exactly when it is in range, and filtering a concatenation filters each part in turn |
| BudgetUtils.TotalExpensesAppend | client/src/utils/budgetUtils.js:10-13 | the total is 0 for no expenses and adds up over concatenation |
| BudgetUtils.TotalWithoutBounds | client/src/utils/budgetUtils.js:10-13 | without bounds the total is the sum of all amounts |
| BudgetUtils.TotalNonNegative | client/src/utils/budgetUtils.js:10-13 | amounts that are not negative give a total that is not negative |
| BudgetUtils.DaysDiff | client/src/utils/budgetUtils.js:66 | the divisor is at least 1; for a span above minus one day it is the span's days rounded up, plus one, and for a span of zero or less (a single expense) it is 1 |
| BudgetUtils.MinDate | client/src/utils/budgetUtils.js:57 | `Math.min` of the dates is one of them and no larger than any |
| BudgetUtils.MaxDate | client/src/utils/budgetUtils.js:58 | `Math.max` of the dates is one of them and no smaller than any |
| BudgetUtils.AverageDivisor | client/src/utils/budgetUtils.js:55-66 | the divisor, from the range or from the expenses' own dates, is at least 1 |
| BudgetUtils.DailyAverage | client/src/utils/budgetUtils.js:45-50 | the average is 0 when no expense lies in the range |
| BudgetUtils.DailyAverageIsShare | client/src/utils/budgetUtils.js:45-67 | otherwise the average is the in-range total divided by the divisor |
| BudgetUtils.DailyAverageNonNegative | client/src/utils/budgetUtils.js:45-67 | amounts that are not negative give an average that is not negative |
| BudgetUtils.ForecastExpenses | client/src/utils/budgetUtils.js:76-129 | the forecast's spent amount is the sum since the last renewal, and its day count is the renewal counter |
| BudgetUtils.ProjectAdds | client/src/utils/budgetUtils.js:110-119 | the total is spent plus average times days left, and the remaining amount is the current amount minus the same addition |
| BudgetUtils.ForecastOnlyCountsPeriod | client/src/utils/budgetUtils.js:101 | the forecast of all expenses equals the forecast of those since the last renewal |
| BudgetUtils.ForecastProjection | client/src/utils/budgetUtils.js:101-119 | with expenses in the period, the average is their total over the days since the renewal, projected over the days left |
| BudgetUtils.ForecastWithoutExpenses | client/src/utils/budgetUtils.js:48-50 | with no expense since the renewal, the forecast adds nothing and leaves the current amount |
| BudgetUtils.ForecastNotAboveCurrent | client/src/utils/budgetUtils.js:107-119 | amounts that are not negative never make the forecast remaining amount exceed the current amount |
| BudgetUtils.ForecastDivisor | client/src/utils/budgetUtils.js:66 | the divisor counts the whole days since the renewal plus 1 at midnight, plus 2 at any other time |
| BudgetUtils.Usage | client/src/utils/budgetUtils.js:137-143 | the percentage lies in 0..100 and is 100 for a budget amount of 0 or less |
| BudgetUtils.UsageExact | client/src/utils/budgetUtils.js:142 | within the budget the percentage is exactly 100 * spent / budget |
| BudgetUtils.UsageMonotone | client/src/utils/budgetUtils.js:137-143 | spending more never shows a smaller percentage |
| BudgetUtils.CategoryTotals | client/src/utils/budgetUtils.js:150-159 | one entry per category (missing category as 'Inne') in first-appearance order, each the sum of that category's amounts |
| BudgetUtils.CategoryTotalsSum | client/src/utils/dateUtils.js:80-89 | the category totals add up to the total of all amounts |
| BudgetUtils.CategoryTotalsNames | client/src/utils/dateUtils.js:82 | an expense without a category is counted under 'Inne'; no entry is named by the empty string |
| BudgetUtils.GroupByDate | client/src/utils/dateUtils.js:64-73 | one group per formatted date in first-appearance order, holding exactly that date's expenses in input order |
| BudgetUtils.GroupByDatePartition | client/src/utils/dateUtils.js:64-73 | the groups together hold every expense exactly as often as the input, and no date twice |
| BudgetUtils.DateGroupIsDay | client/src/utils/dateUtils.js:64-73 | two expenses share a date group exactly when they fall on the same day |
| DateText.FormatDateFields | client/src/utils/dateUtils.js:6-13 | the key splits into the zero-padded day, the zero-padded month and the year |
| DateText.ParseFormatDate | client/src/utils/dateUtils.js:6-13 | the "DD-MM-YYYY" key reads back as the date it was made from |
| DateText.FormatDateSameDay | client/src/utils/dateUtils.js:6-13 | two instants get the same key exactly when they fall on the same day |
| DateText.ReorderFormatDate | client/src/components/Expenses/ExpenseList.jsx:119 | reversing the key's dash-separated fields gives "YYYY-MM-DD" of the same date |
| DateText.IsoDayNumberOfKey | client/src/components/Charts/ExpenseChart.jsx:68-71 | parsing the re-ordered key gives back the day of the instant, for four-digit years |
| DateText.KeyDayOfDate | client/src/components/Expenses/ExpenseList.jsx:119 | the date comparators' sort key of a formatted date is that date's day number |
| DateText.SplitThree | client/src/components/Expenses/ExpenseList.jsx:119 | `split('-')` of three dash-free fields joined by dashes gives back exactly those three fields |
| DateText.Reverse | client/src/components/Expenses/ExpenseList.jsx:119 | `reverse()` keeps the length and puts each field at the mirrored position |
| Text.Pad2 | client/src/utils/dateUtils.js:8-9 | `padStart(2, '0')` leaves two or more characters alone and otherwise left-fills with zeros to exactly two, keeping the text as its tail |
| Text.NatToStringValue | client/src/utils/dateUtils.js:8-12 | `String(n)` of a natural number is decimal digits spelling n |
| BudgetContext.InitialState | client/src/context/BudgetContext.jsx:8-15 | the initial budget is amount 0, renewal day 1, current 0, with no expenses, a zero balance and unique ids |
| Records.Stamp | client/src/context/BudgetContext.jsx:49-52 | stamping a draft sets the id and keeps every other field as submitted |
| BudgetContext.UpdateBudgetReplaces | client/src/context/BudgetContext.jsx:41-43 | `updateBudget` replaces the budget wholesale and leaves the expenses untouched |
| BudgetContext.AddExpenseAppends | client/src/context/BudgetContext.jsx:46-58 | `addExpense` appends exactly the stamped expense, keeps all earlier ones and takes its amount off the current amount |
| BudgetContext.FindById | client/src/context/BudgetContext.jsx:63 | `find` answers nothing exactly when no expense carries the id |
| BudgetContext.RemoveAbsent | client/src/context/BudgetContext.jsx:63-66 | removing an id nobody carries changes nothing |
| BudgetContext.RemovePresent | client/src/context/BudgetContext.jsx:63-73 | removing a present id drops every expense with it and credits back only the first match's amount |
| BudgetContext.KeepsSettings | client/src/context/BudgetContext.jsx:53-73 | adding and removing never change the monthly amount or the renewal day |
| BudgetContext.AddThenRemove | client/src/context/BudgetContext.jsx:46-77 | with a fresh id, adding and then removing restores the exact prior state |
| BudgetContext.SumWithout | client/src/context/BudgetContext.jsx:67-72 | among unique ids, dropping one id removes exactly that expense's amount from the sum |
| BudgetContext.BalanceKept | client/src/context/BudgetContext.jsx:46-77 | with unique ids and fresh ids for adds, current amount plus recorded spending is invariant and ids stay unique |
| BudgetContext.AddKeepsBalance | client/src/context/BudgetContext.jsx:46-58 | an add with a fresh id keeps the balance and unique ids |
| BudgetContext.RemoveKeepsBalance | client/src/context/BudgetContext.jsx:61-77 | a removal among unique ids keeps the balance and unique ids |
| BudgetContext.AddAllAppends | client/src/components/Receipts/ReceiptScanner.jsx:174-186 | adding a batch appends the stamped drafts in order and takes their total off the current amount |
| BudgetContext.SharedIdLosesAmount | client/src/context/BudgetContext.jsx:63-73 | two receipt items of 1 and 2 sharing an id: removing the id leaves -2 where separate ids would leave 0 |
| Fields.Trunc | client/src/components/BudgetSetup/BudgetForm.jsx:91-92 | `parseInt`'s integer part: the number cut toward zero, within one of it |
| Fields.ParseInt | client/src/components/BudgetSetup/BudgetForm.jsx:118 | `parseInt` gives a number exactly when the text is numeric, and that number is the text's value cut toward zero |
| Fields.ParseDuration | client/src/components/Expenses/ExpenseForm.jsx:110 | an empty duration is null, a non-numeric one is NaN, any other is its value cut toward zero |
| Fields.ParseDurationDays | client/src/components/Expenses/ExpenseForm.jsx:110 | a whole number of days is read back exactly |
| BudgetForm.Validate | client/src/components/BudgetSetup/BudgetForm.jsx:72-109 | valid exactly when the monthly amount is a number above 0, the renewal day a number with integer part 1..31 and the current amount a number of at least 0, none empty; an empty field shows its "required" message, a filled failing one its "invalid" message, a passing one keeps what was shown |
| BudgetForm.FailingFieldsReported | client/src/components/BudgetSetup/BudgetForm.jsx:72-108 | every failing field shows a non-empty message whatever was shown before |
| BudgetForm.BlankIsRequired | client/src/components/BudgetSetup/BudgetForm.jsx:77-101 | empty fields are reported as required, not as malformed |
| BudgetForm.ZeroAmounts | client/src/components/BudgetSetup/BudgetForm.jsx:80-102 | a filled field reading 0 passes as a current amount but is an invalid monthly amount, since one check is `< 0` and the other `<= 0` |
| BudgetForm.Submit | client/src/components/BudgetSetup/BudgetForm.jsx:112-125 | a budget is submitted exactly when the form is valid |
| BudgetForm.SubmittedBudget | client/src/components/BudgetSetup/BudgetForm.jsx:115-120 | the submitted amounts are the parsed numbers and the renewal day is `parseInt` of its field, all within the validated ranges |
| BudgetForm.ChangeOnlyNamed | client/src/components/BudgetSetup/BudgetForm.jsx:57-69 | typing sets only the named field and clears only its message |
| ExpenseForm.Validate | client/src/components/Expenses/ExpenseForm.jsx:72-99 | valid exactly when the amount is a number above 0 and a date and a category are given; an empty amount shows "required", a filled failing one "invalid", an empty date or category "required", and a passing field keeps what was shown |
| ExpenseForm.FreeFieldsNeverBlock | client/src/components/Expenses/ExpenseForm.jsx:72-99 | description, shop and duration never change the verdict or the messages |
| ExpenseForm.Submit | client/src/components/Expenses/ExpenseForm.jsx:102-116 | a draft is submitted exactly when the form is valid |
| ExpenseForm.SubmittedDraft | client/src/components/Expenses/ExpenseForm.jsx:105-111 | the draft has the parsed amount, the parsed date, the text fields as typed, and duration null exactly for an empty field, else its integer part |
| ExpenseForm.ChangeClearsOwnMessage | client/src/components/Expenses/ExpenseForm.jsx:55-69 | typing clears a message only in the amount, date or category slot, and only the one typed into |
| ReceiptScanner.Capitalize | client/src/components/Receipts/ReceiptScanner.jsx:53 | capitalising keeps the length |
| ReceiptScanner.FixCategory | client/src/components/Receipts/ReceiptScanner.jsx:51-55 | the result is always one of the ten categories; a missing category becomes 'Inne'; otherwise it is 'Inne' or the capitalised text |
| ReceiptScanner.CategoriesCapitalized | client/src/components/Receipts/ReceiptScanner.jsx:33-44 | each of the ten categories is its own capitalisation |
| ReceiptScanner.FixCategoryFixedPoints | client/src/components/Receipts/ReceiptScanner.jsx:51-55 | every category is a fixed point, so fixing twice is fixing once |
| ReceiptScanner.FixCategoryExact | client/src/components/Receipts/ReceiptScanner.jsx:53-54 | a category other than 'Inne' results exactly when the capitalised text spells it |
| ReceiptScanner.FixCategoryIgnoresCase | client/src/components/Receipts/ReceiptScanner.jsx:53 | lower- or upper-casing the text first changes nothing |
| ReceiptScanner.NormalizeItems | client/src/components/Receipts/ReceiptScanner.jsx:106-109 | after analysis every item's category is one of the ten, names and prices unchanged |
| ReceiptScanner.NormalizeItemsIdempotent | client/src/components/Receipts/ReceiptScanner.jsx:106-109 | normalising again changes nothing |
| ReceiptScanner.ChangeItem | client/src/components/Receipts/ReceiptScanner.jsx:126-143 | an edit leaves every other item as it was |
| ReceiptScanner.ChangeItemSetsField | client/src/components/Receipts/ReceiptScanner.jsx:126-143 | only the named field of the edited item changes, a category passing through the fix, so categories stay among the ten |
| ReceiptScanner.RemoveItem | client/src/components/Receipts/ReceiptScanner.jsx:146-153 | removal shortens the list by one, or changes nothing for an index outside it |
| ReceiptScanner.RemoveItemExact | client/src/components/Receipts/ReceiptScanner.jsx:147 | exactly the item at the index goes; the others keep their order |
| ReceiptScanner.SaveReceipt | client/src/components/Receipts/ReceiptScanner.jsx:167-186 | saving fails exactly when there is no receipt or no item, else gives one draft per item |
| ReceiptScanner.SavedDrafts | client/src/components/Receipts/ReceiptScanner.jsx:174-186 | each draft has its item's price, category and name, the store, the receipt date or now, and the shared duration |
| ReceiptScanner.SavedTotal | client/src/components/Receipts/ReceiptScanner.jsx:177 | the drafts' amounts add up to the items' prices |
| ReceiptScanner.SaveThenAdd | client/src/components/Receipts/ReceiptScanner.jsx:174-186 | saving appends one expense per item and takes the receipt total off the current amount |
| ExpenseChart.WindowOn | client/src/components/Charts/ExpenseChart.jsx:33-48 | the chart's period starts at the forecast's last renewal and ends one day before the next, at midnights |
| ExpenseChart.ChartWindow | client/src/components/Charts/ExpenseChart.jsx:29-48 | on today's date, the window is the forecast's period ending a day early |
| ExpenseChart.ChartWindowHoldsToday | client/src/components/Charts/ExpenseChart.jsx:33-48 | for renewal day 1..28 the window opens at or before now and ends no earlier than today's midnight, on the day before the renewal day |
| ExpenseChart.LastDayOnlyAtMidnight | client/src/components/Charts/ExpenseChart.jsx:43-51 | on the window's last day only its first instant is inside |
| ExpenseChart.Chart | client/src/components/Charts/ExpenseChart.jsx:21-83 | no expenses give empty datasets; the daily data is in date order and the category data in descending order |
| ExpenseChart.ChartTotals | client/src/components/Charts/ExpenseChart.jsx:54-83 | both datasets add up to the total spent in the period |
| ExpenseChart.ChartEntries | client/src/components/Charts/ExpenseChart.jsx:54-83 | one entry per date (per category) with spending in the period, none twice, each that date's (category's) total |
| ExpenseChart.DailyAscending | client/src/components/Charts/ExpenseChart.jsx:65-72 | with four-digit years, an earlier daily entry holds an earlier day |
| ExpenseChart.CategoriesDescending | client/src/components/Charts/ExpenseChart.jsx:80-83 | category entries run from the largest amount to the smallest |
| ExpenseList.CategoryOptions | client/src/components/Expenses/ExpenseList.jsx:29 | no option is repeated |
| ExpenseList.CategoryOptionsExact | client/src/components/Expenses/ExpenseList.jsx:29 | the options are exactly the non-empty categories of the expenses |
| ExpenseList.Visible | client/src/components/Expenses/ExpenseList.jsx:32-53 | the shown list is sorted newest first |
| ExpenseList.VisibleKeepsRecordOrder | client/src/components/Expenses/ExpenseList.jsx:33-50 | expenses with the same date, such as one receipt's items, are listed in the order they were recorded |
| ExpenseList.VisibleExact | client/src/components/Expenses/ExpenseList.jsx:33-47 | the list shows exactly the expenses passing both filters, each as often as recorded |
| ExpenseList.VisibleUnfiltered | client/src/components/Expenses/ExpenseList.jsx:33-50 | with no search and no category every expense is shown |
| ExpenseList.SearchMeans | client/src/components/Expenses/ExpenseList.jsx:36-42 | a search keeps an expense exactly when the lower-cased term occurs in its lower-cased description or shop |
| ExpenseList.SearchIgnoresCase | client/src/components/Expenses/ExpenseList.jsx:37 | a search typed in capitals shows the same list |
| Text.IncludesOccurs | client/src/components/Expenses/ExpenseList.jsx:40-41 | `includes` holds exactly when the term occurs at some position of the text |
| ExpenseList.DateGroups | client/src/components/Expenses/ExpenseList.jsx:118-119 | the date groups are reordered, not changed |
| ExpenseList.DateGroupMembers | client/src/components/Expenses/ExpenseList.jsx:56 | every expense of a group carries the group's date and is one of those shown |
| ExpenseList.DateGroupsDistinct | client/src/components/Expenses/ExpenseList.jsx:118-121 | no two groups share a date |
| ExpenseList.DateGroupsNewestFirst | client/src/components/Expenses/ExpenseList.jsx:118-119 | with four-digit years, everything in an earlier group is from a later day |
| BudgetProgress.ProgressColorScale | client/src/components/Charts/BudgetProgress.jsx:45-49 | success up to 60, warning above 60 up to 85, error above 85, and a higher percentage never shows a milder colour |
| BudgetProgress.CardOf | client/src/components/Charts/BudgetProgress.jsx:34-49 | both percentages lie in 0..100 with their colours; the remaining amount is in error colour exactly when negative |
| BudgetProgress.ProgressOf | client/src/components/Charts/BudgetProgress.jsx:17-52 | the placeholder is shown exactly when the monthly amount is 0 |
| BudgetProgress.ProgressFigures | client/src/components/Charts/BudgetProgress.jsx:31-52 | the used share is monthly minus current over monthly, the forecast share is the forecast total over monthly, and remaining and days are the forecast's |
| BudgetProgress.UsedBarEnds | client/src/components/Charts/BudgetProgress.jsx:34-37 | nothing spent shows 0 percent in green; nothing left shows 100 percent in red |
| BudgetProgress.ProgressDays | client/src/components/Charts/BudgetProgress.jsx:52 | for renewal day 1..28 the card counts 1 to 31 days |
| Lists.Distinct | client/src/components/Expenses/ExpenseList.jsx:29 | `[...new Set(xs)]`: no repeats, the same members, in order of first appearance |
| Lists.SortBy | client/src/components/Expenses/ExpenseList.jsx:50 | the sort returns its input reordered into ascending key order |
| Lists.SortByStable | client/src/components/Expenses/ExpenseList.jsx:50 | the sort is stable: the elements sharing any one key come out in their input order |
| Grouping.GroupTotals | client/src/utils/dateUtils.js:80-89 | the reduction's entries are the distinct keys in first-appearance order, each with its elements' sum |
| Grouping.GroupTotalsSum | client/src/utils/dateUtils.js:80-89 | the per-key totals add up to the total of all amounts |
| Grouping.GroupBy | client/src/utils/dateUtils.js:64-73 | the reduction's groups are the distinct keys in first-appearance order, each with its elements in order |
| Grouping.GroupByFlatten | client/src/utils/dateUtils.js:64-73 | the groups hold every element exactly as often as the input, under distinct keys |
| Grouping.SortedTotals | client/src/components/Charts/ExpenseChart.jsx:65-83 | totals reordered by any key keep one entry per key, none twice, each its elements' sum |

## Left out

- Browser storage, JSON import and export, and the AI receipt analysis are left out. These are I/O: the analysed receipt arrives as a `Receipt` value.
- React scheduling is left out. The context's updaters are atomic transitions, including the `setBudget` nested inside the `setExpenses` updater.
- Navigation, rendering, the chart-type toggle, axis formatting and `formatRecommendations` are presentation and are left out.
- The form prefill from the stored budget is left out. This is `BudgetForm.jsx` lines 44-54, where a stored current amount of 0 shows as an empty field.
- `handleReceiptDataChange` is left out. It overwrites a single receipt field.
- Time zones and daylight saving are not modelled. Every day is 86 400 000 ms in a single zone, and "YYYY-MM-DD" text parses to local midnight rather than UTC midnight.
- IEEE-754 rounding, `NaN` amounts and `toFixed` are left out. Amounts and prices are exact reals, so the price the analysis returns is taken as already a number.
- Calendar.MkDate: `new Date(y, m, d)` reads years 0 to 99 as 1900 to 1999. The model does not.
- DateText.IsoDayNumber: only "YYYY-MM-DD" with a four-digit year is read. The engine's fallback parser is not modelled.
- DateText.KeyDay: text that does not parse gets day 0 where the engine gives `NaN`. The comparators' behaviour with `NaN` is not modelled. The date-order lemmas assume years 1000 to 9999.
- Fields.ParseInt: `parseInt` is taken as the number `isNaN` reads, truncated. Texts where the two differ, such as "1e3", "0x1A" or padding spaces, are not modelled.
- Text.ToLower: case mapping covers ASCII and the Polish letters only. Other scripts, and mappings that change length, are left out.
- Object key order: the reductions keep keys in insertion order. The engine puts integer-like keys, such as a category named "2024", first in numeric order, and this is not modelled.
- ReceiptScanner.SaveReceipt: every draft gets the same "now". The source calls `new Date()` once per item.
- ReceiptScanner.ChangeItem: an edited price is modelled as the number typed. The source stores the field's text in `item.price` (ReceiptScanner.jsx lines 134-137 and 359-360). Saving then reads that text with `parseFloat` (line 177), so "12,50", the usual Polish decimal form, saves 12, and a cleared field saves `NaN`, which `addExpense` carries into the current amount. None of this is modelled.
- ReceiptScanner.ChangeItemSetsField: the price it sets is a real, not the typed text the source keeps. The `parseFloat` reading at save time, with the "12,50" and blank cases above, is therefore not covered.
- ReceiptScanner.SavedDrafts: a draft's amount equals the item's price. In the source it is `parseFloat(item.price)`, which differs from the typed price for edited texts such as "12,50" (12) or "" (`NaN`).
- ReceiptScanner.ChangeItem: requires an index within the list. The edit fields exist only for listed items; writing past the end, which would grow the array, is not modelled.
- Expense ids are inputs rather than `Date.now()` readings.
- Fields.Field: a field holds one number, the one `isNaN` reads (`Number(text)`), and `parseFloat` and `parseInt` are taken to read the same number. Texts on which they disagree are not modelled. With "0x10", `isNaN` is false but `parseFloat` gives 0, so the source rejects the monthly amount where the model accepts 16. With blank spaces only, `isNaN` is false (the text reads as 0) but `parseFloat` and `parseInt` give `NaN`, which passes the `<= 0`, `< 0`, `< 1` and `> 31` checks, so the source accepts and stores `NaN` where the model rejects zero. BudgetForm.Validate, ExpenseForm.Validate, BudgetForm.SubmittedBudget and ExpenseForm.SubmittedDraft hold only for texts on which `Number`, `parseFloat` and `parseInt` agree.
- BudgetProgress.ProgressOf: one instant stands for the three clock readings behind the card: `forecastExpenses`' `today`, the `new Date()` inside the `getDaysUntilRenewal` it calls, and the card's own `getDaysUntilRenewal`. The same holds for BudgetUtils.ForecastExpenses. BudgetProgress.ProgressFigures' equality of the card's day count with the forecast's relies on this; in the source, readings on either side of midnight can differ by a day.

=== FILE: budget_context.dfy ===
/**
 * The application state the budget context holds: the budget and the
 * expense list, and the three updates it offers. `Date.now()`, which
 * `addExpense` uses as the new expense's id, is the `id` of the command.
 */
module BudgetContext {
  import opened Wrappers
  import opened Lists
  import opened Records

  datatype State = State(budget: Budget, expenses: seq<Expense>)

  datatype Command =
    | UpdateBudget(newBudget: Budget)
    | AddExpense(draft: Draft, id: int)
    | RemoveExpense(expenseId: int)

  /** The state before anything is loaded or entered. */
  const Initial: State := State(Budget(0.0, 1, 0.0), [])

  /** Position of the first expense with id `id`, or `|expenses|` when there is none. */
  function FirstWithId(expenses: seq<Expense>, id: int): (i: nat)
    ensures i <= |expenses|
    ensures i < |expenses| ==> expenses[i].id == id
    ensures forall j :: 0 <= j < i ==> expenses[j].id != id
  {
    if |expenses| == 0 then 0
    else if expenses[0].id == id then 0
    else 1 + FirstWithId(expenses[1..], id)
  }

  /** `expenses.find(exp => exp.id === id)`. */
  function FindById(expenses: seq<Expense>, id: int): (r: Option<Expense>)
    ensures r.None? <==> forall i :: 0 <= i < |expenses| ==> expenses[i].id != id
  {
    var i := FirstWithId(expenses, id);
    if i < |expenses| then Some(expenses[i]) else None
  }

  function OtherThan(id: int): Expense -> bool {
    (e: Expense) => e.id != id
  }

  /** One update, as the context applies it. */
  function Step(s: State, c: Command): State {
    match c
    case UpdateBudget(b) => State(b, s.expenses)
    case AddExpense(d, id) =>
      State(s.budget.(currentAmount := s.budget.currentAmount - d.amount), s.expenses + [Stamp(d, id)])
    case RemoveExpense(id) =>
      match FindById(s.expenses, id)
      case None => s
      case Some(e) =>
        State(s.budget.(currentAmount := s.budget.currentAmount + e.amount), Filter(s.expenses, OtherThan(id)))
  }

  /** Money still available plus money recorded as spent. */
  function Balance(s: State): real {
    s.budget.currentAmount + Sum(s.expenses, Amount)
  }

  predicate IdsUnique(s: State) {
    DistinctBy(s.expenses, Id)
  }

  predicate FreshId(s: State, id: int) {
    forall i :: 0 <= i < |s.expenses| ==> s.expenses[i].id != id
  }

  /** The initial budget: nothing to spend, renewal on the 1st, no expenses; its balance is zero. */
  lemma InitialState()
    ensures Initial.budget.monthlyAmount == 0.0 && Initial.budget.renewalDay == 1
    ensures Initial.budget.currentAmount == 0.0 && |Initial.expenses| == 0
    ensures Balance(Initial) == 0.0 && IdsUnique(Initial)
  {
  }

  /** `updateBudget` replaces the budget wholesale and leaves the expenses alone. */
  lemma UpdateBudgetReplaces(s: State, b: Budget)
    ensures Step(s, UpdateBudget(b)).budget == b
    ensures Step(s, UpdateBudget(b)).expenses == s.expenses
  {
  }

  /**
   * `addExpense` appends one expense, the draft's fields with the given id,
   * keeps every earlier expense in place and takes the amount off the
   * money left.
   */
  lemma AddExpenseAppends(s: State, d: Draft, id: int)
    ensures var r := Step(s, AddExpense(d, id));
            && |r.expenses| == |s.expenses| + 1
            && r.expenses[..|s.expenses|] == s.expenses
            && Unstamp(r.expenses[|s.expenses|]) == d
            && r.expenses[|s.expenses|].id == id
            && r.budget.currentAmount == s.budget.currentAmount - d.amount
  {
  }

  /** Removing an id no expense carries changes nothing. */
  lemma RemoveAbsent(s: State, id: int)
    requires FreshId(s, id)
    ensures Step(s, RemoveExpense(id)) == s
  {
  }

  /**
   * Removing an id that is present drops every expense carrying it, keeps
   * the others in order, and gives back the amount of the first match only.
   */
  lemma RemovePresent(s: State, id: int, i: nat)
    requires i < |s.expenses| && s.expenses[i].id == id
    requires forall j :: 0 <= j < i ==> s.expenses[j].id != id
    ensures var r := Step(s, RemoveExpense(id));
            && r.expenses == Filter(s.expenses, OtherThan(id))
            && (forall e :: e in r.expenses <==> e in s.expenses && e.id != id)
            && r.budget.currentAmount == s.budget.currentAmount + s.expenses[i].amount
  {
    assert FirstWithId(s.expenses, id) == i;
    forall e
      ensures e in Filter(s.expenses, OtherThan(id)) <==> e in s.expenses && e.id != id
    {
      FilterMembers(s.expenses, OtherThan(id), e);
    }
  }

  /** Adding and removing expenses never touches the monthly amount or the renewal day. */
  lemma KeepsSettings(s: State, c: Command)
    requires !c.UpdateBudget?
    ensures Step(s, c).budget.monthlyAmount == s.budget.monthlyAmount
    ensures Step(s, c).budget.renewalDay == s.budget.renewalDay
  {
  }

  /** With an id no expense carries, adding an expense and removing it again restores the state exactly. */
  lemma AddThenRemove(s: State, d: Draft, id: int)
    requires FreshId(s, id)
    ensures Step(Step(s, AddExpense(d, id)), RemoveExpense(id)) == s
  {
    var added := Step(s, AddExpense(d, id));
    var x := Stamp(d, id);
    RemovePresent(added, id, |s.expenses|);
    FilterAppend(s.expenses, [x], OtherThan(id));
    FilterKeepsAll(s.expenses, OtherThan(id));
    assert Filter([x], OtherThan(id)) == [] by {
      assert [x][1..] == [];
    }
  }

  /** Dropping the one expense with a given id, among unique ids, takes exactly its amount off the sum. */
  lemma {:induction false} SumWithout(expenses: seq<Expense>, i: nat)
    requires DistinctBy(expenses, Id)
    requires i < |expenses|
    ensures Sum(Filter(expenses, OtherThan(expenses[i].id)), Amount) + expenses[i].amount == Sum(expenses, Amount)
  {
    var id := expenses[i].id;
    var t := expenses[1..];
    assert DistinctBy(t, Id) by {
      forall a, b | 0 <= a < b < |t|
        ensures Id(t[a]) != Id(t[b])
      {
        assert t[a] == expenses[a + 1] && t[b] == expenses[b + 1];
      }
    }
    if i == 0 {
      FilterKeepsAll(t, OtherThan(id));
    } else {
      assert t[i - 1] == expenses[i];
      assert expenses[0].id != id;
      SumWithout(t, i - 1);
    }
  }

  /**
   * While ids stay unique, every add and remove keeps the money left plus
   * the money recorded constant, and an add with a fresh id keeps the ids
   * unique.
   */
  lemma BalanceKept(s: State, c: Command)
    requires IdsUnique(s)
    requires c.AddExpense? ==> FreshId(s, c.id)
    ensures IdsUnique(Step(s, c))
    ensures !c.UpdateBudget? ==> Balance(Step(s, c)) == Balance(s)
  {
    match c
    case UpdateBudget(b) =>
    case AddExpense(d, id) => AddKeepsBalance(s, d, id);
    case RemoveExpense(id) => RemoveKeepsBalance(s, id);
  }

  lemma AddKeepsBalance(s: State, d: Draft, id: int)
    requires IdsUnique(s) && FreshId(s, id)
    ensures IdsUnique(Step(s, AddExpense(d, id)))
    ensures Balance(Step(s, AddExpense(d, id))) == Balance(s)
  {
    var x := Stamp(d, id);
    SumAppend(s.expenses, [x], Amount);
    assert DistinctBy(s.expenses + [x], Id) by {
      forall a, b | 0 <= a < b < |s.expenses| + 1
        ensures Id((s.expenses + [x])[a]) != Id((s.expenses + [x])[b])
      {
      }
    }
  }

  lemma RemoveKeepsBalance(s: State, id: int)
    requires IdsUnique(s)
    ensures IdsUnique(Step(s, RemoveExpense(id)))
    ensures Balance(Step(s, RemoveExpense(id))) == Balance(s)
  {
    var i := FirstWithId(s.expenses, id);
    if i < |s.expenses| {
      SumWithout(s.expenses, i);
      FilterDistinct(s.expenses, OtherThan(id));
    }
  }

  /** Keeping some elements of a list whose ids are unique keeps the ids unique. */
  lemma {:induction false} FilterDistinct(expenses: seq<Expense>, p: Expense -> bool)
    requires DistinctBy(expenses, Id)
    ensures DistinctBy(Filter(expenses, p), Id)
  {
    if |expenses| > 0 {
      var t := expenses[1..];
      assert DistinctBy(t, Id) by {
        forall a, b | 0 <= a < b < |t|
          ensures Id(t[a]) != Id(t[b])
        {
          assert t[a] == expenses[a + 1] && t[b] == expenses[b + 1];
        }
      }
      FilterDistinct(t, p);
      assert expenses == [expenses[0]] + t;
      FilterAppend([expenses[0]], t, p);
      assert Filter([expenses[0]], p) == (if p(expenses[0]) then [expenses[0]] else []) by {
        assert [expenses[0]][1..] == [];
      }
      if p(expenses[0]) {
        var rest := Filter(t, p);
        forall k | 0 <= k < |rest|
          ensures Id(rest[k]) != Id(expenses[0])
        {
          FilterMembers(t, p, rest[k]);
          var j :| 0 <= j < |t| && t[j] == rest[k];
          assert expenses[j + 1] == rest[k];
        }
        ConsDistinct(expenses[0], rest, Id);
      }
    }
  }

  /** `addExpense` once per draft, in order, the i-th getting id `ids[i]`. */
  function AddAll(s: State, drafts: seq<Draft>, ids: seq<int>): (r: State)
    requires |ids| == |drafts|
    decreases |drafts|
  {
    if |drafts| == 0 then s
    else AddAll(Step(s, AddExpense(drafts[0], ids[0])), drafts[1..], ids[1..])
  }

  function DraftAmount(d: Draft): real {
    d.amount
  }

  /** Adding a batch appends the stamped drafts in order and takes their total off the money left. */
  lemma {:induction false} AddAllAppends(s: State, drafts: seq<Draft>, ids: seq<int>)
    requires |ids| == |drafts|
    ensures var r := AddAll(s, drafts, ids);
            && |r.expenses| == |s.expenses| + |drafts|
            && r.expenses[..|s.expenses|] == s.expenses
            && (forall i :: 0 <= i < |drafts| ==> r.expenses[|s.expenses| + i] == Stamp(drafts[i], ids[i]))
            && r.budget.currentAmount == s.budget.currentAmount - Sum(drafts, DraftAmount)
            && r.budget.monthlyAmount == s.budget.monthlyAmount
            && r.budget.renewalDay == s.budget.renewalDay
    decreases |drafts|
  {
    if |drafts| > 0 {
      var next := Step(s, AddExpense(drafts[0], ids[0]));
      AddAllAppends(next, drafts[1..], ids[1..]);
      var r := AddAll(s, drafts, ids);
      assert r == AddAll(next, drafts[1..], ids[1..]);
      assert r.expenses[..|s.expenses|] == next.expenses[..|next.expenses|][..|s.expenses|];
      forall i | 0 <= i < |drafts|
        ensures r.expenses[|s.expenses| + i] == Stamp(drafts[i], ids[i])
      {
        if i > 0 {
          assert r.expenses[|next.expenses| + (i - 1)] == Stamp(drafts[1..][i - 1], ids[1..][i - 1]);
        }
      }
    }
  }

  /**
   * Expenses saved within the same millisecond share an id. Removing one of
   * two such expenses then drops both but gives back only the first one's
   * amount: from an empty budget, saving 1.0 and 2.0 under one id and
   * removing it leaves no expenses and -2.0 to spend, where adding and
   * removing each with its own id would leave 0.0.
   */
  lemma SharedIdLosesAmount(d1: Draft, d2: Draft, id: int)
    requires d1.amount == 1.0 && d2.amount == 2.0
    ensures var saved := AddAll(Initial, [d1, d2], [id, id]);
            var removed := Step(saved, RemoveExpense(id));
            && |saved.expenses| == 2
            && !IdsUnique(saved)
            && removed.expenses == []
            && removed.budget.currentAmount == -2.0
            && Balance(removed) == -2.0 && Balance(Initial) == 0.0
  {
    var saved := AddAll(Initial, [d1, d2], [id, id]);
    AddAllAppends(Initial, [d1, d2], [id, id]);
    assert saved.expenses == [Stamp(d1, id), Stamp(d2, id)];
    assert [d1, d2][1..] == [d2] && [d2][1..] == [];
    assert Sum([d2], DraftAmount) == 2.0;
    assert Sum([d1, d2], DraftAmount) == 3.0;
    RemovePresent(saved, id, 0);
    FilterNone(saved.expenses, OtherThan(id));
  }
}

=== FILE: budget_form.dfy ===
/**
 * The budget setup form: three fields, one error message per field,
 * validation, the budget it submits, and typing into a field.
 */
module BudgetForm {
  import opened Wrappers
  import opened Records
  import opened Fields

  datatype Name = MonthlyAmount | RenewalDay | CurrentAmount

  datatype Form = Form(monthlyAmount: Field, renewalDay: Field, currentAmount: Field)

  /** The message shown under each field; the empty string shows none. */
  datatype Errors = Errors(monthlyAmount: string, renewalDay: string, currentAmount: string)

  const NoErrors: Errors := Errors("", "", "")

  const MonthlyRequired: string := "Kwota miesięczna jest wymagana"
  const MonthlyInvalid: string := "Kwota musi być liczbą większą od zera"
  const DayRequired: string := "Dzień odnowienia jest wymagany"
  const DayInvalid: string := "Dzień musi być liczbą od 1 do 31"
  const CurrentRequired: string := "Aktualna kwota jest wymagana"
  const CurrentInvalid: string := "Kwota musi być liczbą nieujemną"

  /** The monthly amount's complaint, if any: required, and a number above zero. */
  function CheckMonthly(f: Field): Option<string> {
    if Blank(f) then Some(MonthlyRequired)
    else if f.number.None? || f.number.value <= 0.0 then Some(MonthlyInvalid)
    else None
  }

  /** The renewal day's complaint, if any: required, and a number whose integer part is 1 to 31. */
  function CheckDay(f: Field): Option<string> {
    if Blank(f) then Some(DayRequired)
    else if f.number.None? || Trunc(f.number.value) < 1 || Trunc(f.number.value) > 31 then Some(DayInvalid)
    else None
  }

  /** The current amount's complaint, if any: required, and a number not below zero. */
  function CheckCurrent(f: Field): Option<string> {
    if Blank(f) then Some(CurrentRequired)
    else if f.number.None? || f.number.value < 0.0 then Some(CurrentInvalid)
    else None
  }

  /** A complaint replaces the message shown; no complaint leaves it as it was. */
  function Report(check: Option<string>, shown: string): string {
    match check
    case Some(m) => m
    case None => shown
  }

  datatype Validation = Validation(valid: bool, errors: Errors)

  /**
   * `validateForm`: the form is valid exactly when the monthly amount is a
   * number above zero, the renewal day a number whose integer part is 1 to
   * 31 and the current amount a number not below zero, none of them left
   * empty. An empty field gets its "required" message, a filled one that
   * fails gets its "invalid" message, and a field that passes keeps the
   * message already shown.
   */
  function Validate(form: Form, shown: Errors): (v: Validation)
    ensures v.valid <==>
              && !Blank(form.monthlyAmount) && !Blank(form.renewalDay) && !Blank(form.currentAmount)
              && form.monthlyAmount.number.Some? && form.monthlyAmount.number.value > 0.0
              && form.renewalDay.number.Some? && 1 <= Trunc(form.renewalDay.number.value) <= 31
              && form.currentAmount.number.Some? && form.currentAmount.number.value >= 0.0
    ensures v.errors.monthlyAmount ==
              if Blank(form.monthlyAmount) then MonthlyRequired
              else if form.monthlyAmount.number.None? || form.monthlyAmount.number.value <= 0.0 then MonthlyInvalid
              else shown.monthlyAmount
    ensures v.errors.renewalDay ==
              if Blank(form.renewalDay) then DayRequired
              else if form.renewalDay.number.None? || !(1 <= Trunc(form.renewalDay.number.value) <= 31) then DayInvalid
              else shown.renewalDay
    ensures v.errors.currentAmount ==
              if Blank(form.currentAmount) then CurrentRequired
              else if form.currentAmount.number.None? || form.currentAmount.number.value < 0.0 then CurrentInvalid
              else shown.currentAmount
  {
    var m, d, c := CheckMonthly(form.monthlyAmount), CheckDay(form.renewalDay), CheckCurrent(form.currentAmount);
    Validation(m.None? && d.None? && c.None?,
               Errors(Report(m, shown.monthlyAmount), Report(d, shown.renewalDay), Report(c, shown.currentAmount)))
  }

  /** A failing field always shows a message, whatever was shown before. */
  lemma FailingFieldsReported(form: Form, shown: Errors)
    ensures CheckMonthly(form.monthlyAmount).Some? ==> Validate(form, shown).errors.monthlyAmount != ""
    ensures CheckDay(form.renewalDay).Some? ==> Validate(form, shown).errors.renewalDay != ""
    ensures CheckCurrent(form.currentAmount).Some? ==> Validate(form, shown).errors.currentAmount != ""
  {
  }

  /** An empty field is reported as missing, never as malformed. */
  lemma BlankIsRequired(form: Form, shown: Errors)
    requires Blank(form.monthlyAmount) && Blank(form.renewalDay) && Blank(form.currentAmount)
    ensures Validate(form, shown) == Validation(false, Errors(MonthlyRequired, DayRequired, CurrentRequired))
  {
  }

  /**
   * Zero is where the two amount checks part: a current amount of zero is
   * accepted, a monthly amount of zero is rejected as invalid.
   */
  lemma ZeroAmounts(f: Field)
    requires !Blank(f) && f.number == Some(0.0)
    ensures CheckCurrent(f).None?
    ensures CheckMonthly(f) == Some(MonthlyInvalid)
  {
  }

  /** `handleSubmit`: the budget built from a valid form, or nothing. */
  function Submit(form: Form, shown: Errors): (r: (Option<Budget>, Errors))
    ensures r.1 == Validate(form, shown).errors
    ensures r.0.Some? <==> Validate(form, shown).valid
  {
    var v := Validate(form, shown);
    if v.valid then
      (Some(Budget(form.monthlyAmount.number.value, Trunc(form.renewalDay.number.value), form.currentAmount.number.value)), v.errors)
    else (None, v.errors)
  }

  /**
   * A submitted budget has a monthly amount above zero, a renewal day from
   * 1 to 31 and a current amount of at least zero, all read from the
   * fields' numbers.
   */
  lemma SubmittedBudget(form: Form, shown: Errors)
    requires Submit(form, shown).0.Some?
    ensures var b := Submit(form, shown).0.value;
            && Some(b.monthlyAmount) == form.monthlyAmount.number && b.monthlyAmount > 0.0
            && ParseInt(form.renewalDay) == Some(b.renewalDay) && 1 <= b.renewalDay <= 31
            && Some(b.currentAmount) == form.currentAmount.number && b.currentAmount >= 0.0
  {
  }

  function Get(form: Form, n: Name): Field {
    match n
    case MonthlyAmount => form.monthlyAmount
    case RenewalDay => form.renewalDay
    case CurrentAmount => form.currentAmount
  }

  function ErrorOf(errors: Errors, n: Name): string {
    match n
    case MonthlyAmount => errors.monthlyAmount
    case RenewalDay => errors.renewalDay
    case CurrentAmount => errors.currentAmount
  }

  /** `handleChange`: the named field takes the new text and its message is cleared. */
  function Change(form: Form, shown: Errors, n: Name, value: Field): (Form, Errors) {
    match n
    case MonthlyAmount => (form.(monthlyAmount := value), shown.(monthlyAmount := ""))
    case RenewalDay => (form.(renewalDay := value), shown.(renewalDay := ""))
    case CurrentAmount => (form.(currentAmount := value), shown.(currentAmount := ""))
  }

  /** Typing changes only the named field and clears only its message. */
  lemma ChangeOnlyNamed(form: Form, shown: Errors, n: Name, value: Field, m: Name)
    ensures Get(Change(form, shown, n, value).0, m) == if m == n then value else Get(form, m)
    ensures ErrorOf(Change(form, shown, n, value).1, m) == if m == n then "" else ErrorOf(shown, m)
  {
  }
}

=== FILE: budget_progress.dfy ===
/**
 * The budget progress card: a placeholder until a monthly amount is set,
 * otherwise the used and forecast percentages with their colours, the
 * days until renewal and the forecast remaining amount. "Now" is a
 * parameter.
 */
module BudgetProgress {
  import opened Calendar
  import opened Records
  import opened Renewal
  import opened BudgetUtils

  /** The three colours a progress bar can take. */
  datatype Color = Success | Warning | Error

  /** Position of a colour on the scale from success to error. */
  function Severity(c: Color): int {
    match c
    case Success => 0
    case Warning => 1
    case Error => 2
  }

  /** `getProgressColor(percentage)`. */
  function ProgressColor(percentage: real): Color {
    if percentage <= 60.0 then Success
    else if percentage <= 85.0 then Warning
    else Error
  }

  /**
   * Success up to 60 percent, warning above 60 up to 85, error above 85;
   * and a higher percentage never shows a milder colour.
   */
  lemma ProgressColorScale(a: real, b: real)
    ensures ProgressColor(a) == Success <==> a <= 60.0
    ensures ProgressColor(a) == Warning <==> 60.0 < a <= 85.0
    ensures ProgressColor(a) == Error <==> a > 85.0
    ensures a <= b ==> Severity(ProgressColor(a)) <= Severity(ProgressColor(b))
  {
  }

  /** What the card shows. */
  datatype Progress =
    | Placeholder
    | Card(usedPercentage: real, forecastPercentage: real,
           usedColor: Color, forecastColor: Color,
           daysUntilRenewal: int,
           remaining: real, remainingInError: bool)

  /** The card for a monthly amount that is set, given the forecast and the day counter. */
  function CardOf(budget: Budget, forecast: Forecast, days: int): (p: Progress)
    ensures p.Card?
    ensures 0.0 <= p.usedPercentage <= 100.0 && 0.0 <= p.forecastPercentage <= 100.0
    ensures p.usedColor == ProgressColor(p.usedPercentage) && p.forecastColor == ProgressColor(p.forecastPercentage)
    ensures p.remainingInError <==> p.remaining < 0.0
  {
    var used := Usage(budget.monthlyAmount - budget.currentAmount, budget.monthlyAmount);
    var forecasted := Usage(forecast.forecastedTotalExpenses, budget.monthlyAmount);
    Card(used, forecasted, ProgressColor(used), ProgressColor(forecasted),
         days, forecast.forecastedRemainingBudget, forecast.forecastedRemainingBudget < 0.0)
  }

  /** The card for a budget, its expenses and the instant `now`; a zero monthly amount counts as unset. */
  function ProgressOf(budget: Budget, expenses: seq<Expense>, now: Instant): (p: Progress)
    ensures p.Placeholder? <==> budget.monthlyAmount == 0.0
    ensures p.Card? ==> 0.0 <= p.usedPercentage <= 100.0 && 0.0 <= p.forecastPercentage <= 100.0
    ensures p.Card? ==> p.usedColor == ProgressColor(p.usedPercentage) && p.forecastColor == ProgressColor(p.forecastPercentage)
    ensures p.Card? ==> (p.remainingInError <==> p.remaining < 0.0)
  {
    if budget.monthlyAmount == 0.0 then Placeholder
    else CardOf(budget, ForecastExpenses(expenses, budget, now), DaysUntilRenewal(budget.renewalDay, now))
  }

  /**
   * The card's figures come from the budget and the forecast: the used
   * percentage is what has gone from the monthly amount, the forecast
   * percentage is the forecast total, both as shares of the monthly amount;
   * the remaining amount and the day counter are the forecast's.
   */
  lemma ProgressFigures(budget: Budget, expenses: seq<Expense>, now: Instant)
    requires budget.monthlyAmount != 0.0
    ensures var p := ProgressOf(budget, expenses, now);
            var f := ForecastExpenses(expenses, budget, now);
            && p.usedPercentage == Usage(budget.monthlyAmount - budget.currentAmount, budget.monthlyAmount)
            && p.forecastPercentage == Usage(f.forecastedTotalExpenses, budget.monthlyAmount)
            && p.remaining == f.forecastedRemainingBudget
            && p.daysUntilRenewal == f.daysUntilRenewal
  {
    var f := ForecastExpenses(expenses, budget, now);
    assert ProgressOf(budget, expenses, now) == CardOf(budget, f, DaysUntilRenewal(budget.renewalDay, now));
  }

  /**
   * Nothing spent of a positive monthly amount shows an empty green bar;
   * nothing left shows a full red one.
   */
  lemma UsedBarEnds(budget: Budget, forecast: Forecast, days: int)
    requires budget.monthlyAmount > 0.0
    ensures var p := CardOf(budget, forecast, days);
            && (budget.currentAmount >= budget.monthlyAmount ==> p.usedPercentage == 0.0 && p.usedColor == Success)
            && (budget.currentAmount <= 0.0 ==> p.usedPercentage == 100.0 && p.usedColor == Error)
  {
    var spent := budget.monthlyAmount - budget.currentAmount;
    if budget.currentAmount >= budget.monthlyAmount {
      assert spent / budget.monthlyAmount <= 0.0;
    }
    if budget.currentAmount <= 0.0 {
      ShareAtLeastWhole(spent, budget.monthlyAmount);
    }
  }

  lemma ShareAtLeastWhole(part: real, whole: real)
    requires whole > 0.0 && part >= whole
    ensures part / whole >= 1.0
  {
    assert part == (part / whole) * whole;
  }

  /** For a renewal day every month has, the card counts 1 to 31 days until renewal. */
  lemma ProgressDays(budget: Budget, expenses: seq<Expense>, now: Instant)
    requires budget.monthlyAmount != 0.0 && 1 <= budget.renewalDay <= 28
    ensures 1 <= ProgressOf(budget, expenses, now).daysUntilRenewal <= 31
  {
    DaysUntilRenewalBounds(budget.renewalDay, now);
  }
}

=== FILE: budget_utils.dfy ===
/**
 * The budget arithmetic: date-range filtering, totals, the daily average,
 * the end-of-period forecast, the clamped usage percentage, and the
 * grouping of expenses by category and by formatted date.
 *
 * The two `groupExpensesByCategory` functions, one next to the budget
 * arithmetic and one next to the date helpers, have the same body; both
 * are `CategoryTotals`.
 */
module BudgetUtils {
  import opened Wrappers
  import opened Calendar
  import opened Lists
  import opened Grouping
  import opened Records
  import opened Renewal
  import opened DateText

  // ---------------------------------------------------------------------
  // filterExpensesByDateRange, calculateTotalExpenses

  /** The test `filterExpensesByDateRange` applies to one date, branch by branch. */
  predicate InRange(t: Instant, start: Option<Instant>, end: Option<Instant>) {
    if start.Some? && end.Some? then start.value <= t && t <= end.value
    else if start.Some? then start.value <= t
    else if end.Some? then t <= end.value
    else true
  }

  /** Each bound that is given holds, both inclusive; a missing bound does not constrain. */
  lemma InRangeBounds(t: Instant, start: Option<Instant>, end: Option<Instant>)
    ensures InRange(t, start, end) <==> (start.None? || start.value <= t) && (end.None? || t <= end.value)
  {
  }

  function DatedIn(start: Option<Instant>, end: Option<Instant>): Expense -> bool {
    (e: Expense) => InRange(e.date, start, end)
  }

  /** `filterExpensesByDateRange(expenses, start, end)`. */
  function FilterByDateRange(expenses: seq<Expense>, start: Option<Instant>, end: Option<Instant>): (r: seq<Expense>)
    ensures |r| <= |expenses|
    ensures forall i :: 0 <= i < |r| ==> InRange(r[i].date, start, end)
  {
    Filter(expenses, DatedIn(start, end))
  }

  /**
   * The filter keeps exactly the expenses within the bounds, each as often
   * as it occurs, and with no bounds keeps the whole list.
   */
  lemma FilterByDateRangeExact(expenses: seq<Expense>, start: Option<Instant>, end: Option<Instant>, x: Expense)
    ensures multiset(FilterByDateRange(expenses, start, end))[x]
         == if InRange(x.date, start, end) then multiset(expenses)[x] else 0
    ensures start.None? && end.None? ==> FilterByDateRange(expenses, start, end) == expenses
  {
    FilterMultiset(expenses, DatedIn(start, end), x);
    if start.None? && end.None? {
      FilterKeepsAll(expenses, DatedIn(start, end));
    }
  }

  /**
   * The filter keeps the expenses' original order: a single expense is kept
   * exactly when it lies within the bounds, and filtering a concatenation
   * filters each part in turn.
   */
  lemma FilterByDateRangeOrder(a: seq<Expense>, b: seq<Expense>, start: Option<Instant>, end: Option<Instant>, x: Expense)
    ensures FilterByDateRange([x], start, end) == if InRange(x.date, start, end) then [x] else []
    ensures FilterByDateRange(a + b, start, end) == FilterByDateRange(a, start, end) + FilterByDateRange(b, start, end)
  {
    assert [x][1..] == [];
    FilterAppend(a, b, DatedIn(start, end));
  }

  /** `calculateTotalExpenses(expenses, start, end)`. */
  function TotalExpenses(expenses: seq<Expense>, start: Option<Instant>, end: Option<Instant>): real {
    Sum(FilterByDateRange(expenses, start, end), Amount)
  }

  /** The total is 0 for an empty list and adds up over concatenation. */
  lemma TotalExpensesAppend(a: seq<Expense>, b: seq<Expense>, start: Option<Instant>, end: Option<Instant>)
    ensures TotalExpenses([], start, end) == 0.0
    ensures TotalExpenses(a + b, start, end) == TotalExpenses(a, start, end) + TotalExpenses(b, start, end)
  {
    FilterAppend(a, b, DatedIn(start, end));
    SumAppend(FilterByDateRange(a, start, end), FilterByDateRange(b, start, end), Amount);
  }

  /** With no bounds the total is the plain sum of the amounts. */
  lemma TotalWithoutBounds(expenses: seq<Expense>)
    ensures TotalExpenses(expenses, None, None) == Sum(expenses, Amount)
  {
    FilterKeepsAll(expenses, DatedIn(None, None));
  }

  predicate AmountsNonNegative(expenses: seq<Expense>) {
    forall i :: 0 <= i < |expenses| ==> expenses[i].amount >= 0.0
  }

  lemma TotalNonNegative(expenses: seq<Expense>, start: Option<Instant>, end: Option<Instant>)
    requires AmountsNonNegative(expenses)
    ensures TotalExpenses(expenses, start, end) >= 0.0
  {
    var f := FilterByDateRange(expenses, start, end);
    forall x | x in f
      ensures Amount(x) >= 0.0
    {
      FilterMembers(expenses, DatedIn(start, end), x);
    }
    SumNonNegative(f, Amount);
  }

  // ---------------------------------------------------------------------
  // calculateDailyAverage

  function Max(a: int, b: int): int {
    if a >= b then a else b
  }

  /** `Math.max(1, Math.ceil((to - from) / day) + 1)`: the days from `from` to `to`, both counted. */
  function DaysDiff(from: Instant, to: Instant): (n: int)
    ensures n >= 1
    ensures to - from > -DayMs ==> (n - 2) * DayMs < to - from <= (n - 1) * DayMs
    ensures to - from <= 0 ==> n == 1
  {
    Max(1, CeilDiv(to - from, DayMs) + 1)
  }

  /** `Math.min(...dates)`. */
  function MinDate(dates: seq<Instant>): (m: Instant)
    requires |dates| > 0
    ensures m in dates
    ensures forall i :: 0 <= i < |dates| ==> m <= dates[i]
  {
    if |dates| == 1 then dates[0]
    else
      var rest := MinDate(dates[1..]);
      if dates[0] <= rest then dates[0] else rest
  }

  /** `Math.max(...dates)`. */
  function MaxDate(dates: seq<Instant>): (m: Instant)
    requires |dates| > 0
    ensures m in dates
    ensures forall i :: 0 <= i < |dates| ==> dates[i] <= m
  {
    if |dates| == 1 then dates[0]
    else
      var rest := MaxDate(dates[1..]);
      if dates[0] >= rest then dates[0] else rest
  }

  function Dates(expenses: seq<Expense>): (r: seq<Instant>)
    ensures |r| == |expenses|
    ensures forall i :: 0 <= i < |expenses| ==> r[i] == expenses[i].date
  {
    seq(|expenses|, i requires 0 <= i < |expenses| => expenses[i].date)
  }

  /**
   * The divisor of the daily average: the days of the given range when
   * both bounds are given, otherwise the days from the earliest to the
   * latest date among the filtered expenses.
   */
  function AverageDivisor(filtered: seq<Expense>, start: Option<Instant>, end: Option<Instant>): (n: int)
    requires |filtered| > 0
    ensures n >= 1
  {
    if start.None? || end.None? then
      DaysDiff(MinDate(Dates(filtered)), MaxDate(Dates(filtered)))
    else
      DaysDiff(start.value, end.value)
  }

  /** `calculateDailyAverage(expenses, start, end)`. */
  function DailyAverage(expenses: seq<Expense>, start: Option<Instant>, end: Option<Instant>): (r: real)
    ensures |FilterByDateRange(expenses, start, end)| == 0 ==> r == 0.0
  {
    var filtered := FilterByDateRange(expenses, start, end);
    if |filtered| == 0 then 0.0
    else TotalExpenses(filtered, None, None) / AverageDivisor(filtered, start, end) as real
  }

  /**
   * The average is the total of the expenses within the bounds divided by
   * the divisor's days.
   */
  lemma DailyAverageIsShare(expenses: seq<Expense>, start: Option<Instant>, end: Option<Instant>)
    requires |FilterByDateRange(expenses, start, end)| > 0
    ensures DailyAverage(expenses, start, end)
         == TotalExpenses(expenses, start, end) / AverageDivisor(FilterByDateRange(expenses, start, end), start, end) as real
  {
    var filtered := FilterByDateRange(expenses, start, end);
    TotalWithoutBounds(filtered);
    assert TotalExpenses(filtered, None, None) == TotalExpenses(expenses, start, end);
  }

  /** With amounts that are not negative, so is the average. */
  lemma DailyAverageNonNegative(expenses: seq<Expense>, start: Option<Instant>, end: Option<Instant>)
    requires AmountsNonNegative(expenses)
    ensures DailyAverage(expenses, start, end) >= 0.0
  {
    var filtered := FilterByDateRange(expenses, start, end);
    if |filtered| > 0 {
      TotalNonNegative(expenses, start, end);
      DailyAverageIsShare(expenses, start, end);
      NonNegativeShare(TotalExpenses(expenses, start, end), AverageDivisor(filtered, start, end));
    }
  }

  lemma NonNegativeShare(total: real, days: int)
    requires total >= 0.0 && days >= 1
    ensures total / days as real >= 0.0
  {
  }

  // ---------------------------------------------------------------------
  // forecastExpenses

  datatype Forecast = Forecast(
    currentExpenses: real,
    averageDailyExpense: real,
    daysUntilRenewal: int,
    forecastedAdditionalExpenses: real,
    forecastedTotalExpenses: real,
    forecastedRemainingBudget: real)

  /** The expenses the forecast counts: those dated from the last renewal up to now. */
  function SinceLastRenewal(expenses: seq<Expense>, renewalDay: int, now: Instant): seq<Expense> {
    FilterByDateRange(expenses, Some(LastRenewal(renewalDay, now)), Some(now))
  }

  /** The condition `SinceLastRenewal` filters with. */
  function InPeriod(renewalDay: int, now: Instant): Expense -> bool {
    DatedIn(Some(LastRenewal(renewalDay, now)), Some(now))
  }

  /**
   * `forecastExpenses(expenses, budget)` at instant `now`: the average per
   * day since the last renewal, projected over the days left until the next.
   */
  function ForecastExpenses(expenses: seq<Expense>, budget: Budget, now: Instant): (f: Forecast)
    ensures f.daysUntilRenewal == DaysUntilRenewal(budget.renewalDay, now)
    ensures f.currentExpenses == Sum(SinceLastRenewal(expenses, budget.renewalDay, now), Amount)
  {
    var last := LastRenewal(budget.renewalDay, now);
    ProjectPeriod(Filter(expenses, DatedIn(Some(last), Some(now))), budget.currentAmount, last, now,
                  DaysUntilRenewal(budget.renewalDay, now))
  }

  /**
   * The forecast computed from the expenses `since` the renewal at `last`,
   * the instant `now` and the `days` left until the next renewal.
   */
  function ProjectPeriod(since: seq<Expense>, currentAmount: real, last: Instant, now: Instant, days: int): (f: Forecast)
    ensures f.daysUntilRenewal == days
    ensures f.currentExpenses == Sum(since, Amount)
  {
    TotalWithoutBounds(since);
    Project(TotalExpenses(since, None, None), DailyAverage(since, Some(last), Some(now)), days, currentAmount)
  }

  /** The forecast's fields from the amount spent, the daily average, the days left and the current budget amount. */
  function Project(current: real, average: real, days: int, currentAmount: real): (f: Forecast)
    ensures f.currentExpenses == current && f.averageDailyExpense == average && f.daysUntilRenewal == days
  {
    var additional := average * days as real;
    Forecast(current, average, days, additional, current + additional, currentAmount - additional)
  }

  /**
   * The projection adds the average once for each day left to what was
   * spent, and takes the same addition off the current amount; with an
   * average and a number of days that are not negative it never raises the
   * remaining amount.
   */
  lemma ProjectAdds(current: real, average: real, days: int, currentAmount: real)
    ensures var f := Project(current, average, days, currentAmount);
            && f.forecastedTotalExpenses == current + average * days as real
            && f.forecastedRemainingBudget == currentAmount - (f.forecastedTotalExpenses - current)
            && (average >= 0.0 && days >= 0 ==> f.forecastedRemainingBudget <= currentAmount && f.forecastedTotalExpenses >= current)
  {
    if average >= 0.0 && days >= 0 {
      ProductNonNegative(average, days);
    }
  }

  /** The projection of a non-empty period whose expenses all lie between `last` and `now`. */
  lemma ProjectionOf(since: seq<Expense>, currentAmount: real, last: Instant, now: Instant, days: int)
    requires since != [] && FilterByDateRange(since, Some(last), Some(now)) == since
    ensures ProjectPeriod(since, currentAmount, last, now, days)
         == Project(Sum(since, Amount), Sum(since, Amount) / DaysDiff(last, now) as real, days, currentAmount)
  {
    DailyAverageIsShare(since, Some(last), Some(now));
    TotalWithoutBounds(since);
    assert AverageDivisor(since, Some(last), Some(now)) == DaysDiff(last, now);
  }

  /** Re-filtering the expenses of the period by the same bounds keeps them all. */
  lemma SinceLastRenewalStable(expenses: seq<Expense>, renewalDay: int, now: Instant)
    ensures var since := SinceLastRenewal(expenses, renewalDay, now);
            SinceLastRenewal(since, renewalDay, now) == since
  {
    var p := InPeriod(renewalDay, now);
    FilterTwice(expenses, p, p);
  }

  /** The forecast sees only the expenses dated from the last renewal up to now. */
  lemma ForecastOnlyCountsPeriod(expenses: seq<Expense>, budget: Budget, now: Instant)
    ensures ForecastExpenses(expenses, budget, now)
         == ForecastExpenses(SinceLastRenewal(expenses, budget.renewalDay, now), budget, now)
  {
    SinceLastRenewalStable(expenses, budget.renewalDay, now);
  }

  /**
   * The projection: the forecast's daily average is the period's total
   * divided by the days from the last renewal to now, both counted, and
   * `Project` carries it over the days left.
   */
  lemma ForecastProjection(expenses: seq<Expense>, budget: Budget, now: Instant)
    requires SinceLastRenewal(expenses, budget.renewalDay, now) != []
    ensures var since := SinceLastRenewal(expenses, budget.renewalDay, now);
            var rate := Sum(since, Amount) / DaysDiff(LastRenewal(budget.renewalDay, now), now) as real;
            ForecastExpenses(expenses, budget, now)
            == Project(Sum(since, Amount), rate, DaysUntilRenewal(budget.renewalDay, now), budget.currentAmount)
  {
    SinceLastRenewalStable(expenses, budget.renewalDay, now);
    ProjectionOf(SinceLastRenewal(expenses, budget.renewalDay, now), budget.currentAmount,
                 LastRenewal(budget.renewalDay, now), now, DaysUntilRenewal(budget.renewalDay, now));
  }

  /** With no expense since the last renewal the forecast adds nothing and spends nothing. */
  lemma ForecastWithoutExpenses(expenses: seq<Expense>, budget: Budget, now: Instant)
    requires SinceLastRenewal(expenses, budget.renewalDay, now) == []
    ensures var f := ForecastExpenses(expenses, budget, now);
            && f.currentExpenses == 0.0
            && f.averageDailyExpense == 0.0
            && f.forecastedAdditionalExpenses == 0.0
            && f.forecastedTotalExpenses == 0.0
            && f.forecastedRemainingBudget == budget.currentAmount
  {
    SinceLastRenewalStable(expenses, budget.renewalDay, now);
  }

  /** With amounts that are not negative the forecast never raises the remaining budget above the current amount. */
  lemma ForecastNotAboveCurrent(expenses: seq<Expense>, budget: Budget, now: Instant)
    requires AmountsNonNegative(expenses)
    requires 1 <= budget.renewalDay <= 28
    ensures var f := ForecastExpenses(expenses, budget, now);
            && f.forecastedRemainingBudget <= budget.currentAmount
            && f.forecastedTotalExpenses >= f.currentExpenses
  {
    var since := SinceLastRenewal(expenses, budget.renewalDay, now);
    assert AmountsNonNegative(since) by {
      forall i | 0 <= i < |since|
        ensures since[i].amount >= 0.0
      {
        FilterMembers(expenses, InPeriod(budget.renewalDay, now), since[i]);
      }
    }
    var last := LastRenewal(budget.renewalDay, now);
    DaysUntilRenewalBounds(budget.renewalDay, now);
    DailyAverageNonNegative(since, Some(last), Some(now));
    ProjectAdds(Sum(since, Amount), DailyAverage(since, Some(last), Some(now)),
                DaysUntilRenewal(budget.renewalDay, now), budget.currentAmount);
  }

  lemma ProductNonNegative(a: real, n: int)
    requires a >= 0.0 && n >= 0
    ensures a * n as real >= 0.0
  {
  }

  /**
   * The forecast's divisor counts both ends of the period: the whole days
   * since the renewal plus one at midnight, and plus two at any other time,
   * the partial day being rounded up before the one is added.
   */
  lemma ForecastDivisor(renewalDay: int, now: Instant)
    requires 1 <= renewalDay <= 28
    ensures var last := LastRenewal(renewalDay, now);
            DaysDiff(last, now) == DayIndex(now) - DayIndex(last) + (if now % DayMs == 0 then 1 else 2)
  {
    RenewalBracketsNow(renewalDay, now);
    var c := DateOf(now);
    MkDateMidnight(c.year, OpeningMonth(c, renewalDay), renewalDay);
    DaysFromMidnight(LastRenewal(renewalDay, now), now);
  }

  /** `DaysDiff` from a midnight: the whole days between, plus one, plus one more for a partial last day. */
  lemma DaysFromMidnight(from: Instant, to: Instant)
    requires from % DayMs == 0 && from <= to
    ensures DaysDiff(from, to) == DayIndex(to) - DayIndex(from) + (if to % DayMs == 0 then 1 else 2)
  {
    var k := DayIndex(to) - DayIndex(from);
    assert to - from == k * DayMs + to % DayMs;
    assert k >= 0;
  }

  // ---------------------------------------------------------------------
  // calculateBudgetUsagePercentage

  function MinReal(a: real, b: real): real {
    if a <= b then a else b
  }

  function MaxReal(a: real, b: real): real {
    if a >= b then a else b
  }

  /** `calculateBudgetUsagePercentage(spent, budgetAmount)`. */
  function Usage(spent: real, budgetAmount: real): (r: real)
    ensures 0.0 <= r <= 100.0
    ensures budgetAmount <= 0.0 ==> r == 100.0
  {
    if budgetAmount <= 0.0 then 100.0
    else MinReal(100.0, MaxReal(0.0, spent / budgetAmount * 100.0))
  }

  /** Within the budget the percentage is exact: spending `s` of `b` is `100 * s / b` percent. */
  lemma UsageExact(spent: real, budgetAmount: real)
    requires 0.0 <= spent <= budgetAmount && budgetAmount > 0.0
    ensures Usage(spent, budgetAmount) * budgetAmount == 100.0 * spent
  {
    assert spent / budgetAmount <= 1.0;
  }

  /** Spending more never shows a smaller percentage. */
  lemma UsageMonotone(a: real, b: real, budgetAmount: real)
    requires a <= b
    ensures Usage(a, budgetAmount) <= Usage(b, budgetAmount)
  {
    if budgetAmount > 0.0 {
      assert a / budgetAmount <= b / budgetAmount;
    }
  }

  // ---------------------------------------------------------------------
  // groupExpensesByCategory, groupExpensesByDate

  /** `expense.category || 'Inne'`. */
  function CategoryKey(e: Expense): string {
    if e.category == "" then "Inne" else e.category
  }

  /** `groupExpensesByCategory(expenses)`: the total per category, in order of first appearance. */
  function CategoryTotals(expenses: seq<Expense>): (r: seq<(string, real)>)
    ensures TotalsOf(r, expenses, CategoryKey, Amount)
  {
    GroupTotals(expenses, CategoryKey, Amount)
  }

  /** The category totals add up to the total of all amounts. */
  lemma CategoryTotalsSum(expenses: seq<Expense>)
    ensures Sum(CategoryTotals(expenses), Value) == Sum(expenses, Amount)
  {
    GroupTotalsSum(expenses, CategoryKey, Amount);
  }

  /** An expense without a category is counted under 'Inne', and no category is the empty string. */
  lemma CategoryTotalsNames(expenses: seq<Expense>)
    ensures forall i :: 0 <= i < |expenses| && expenses[i].category == "" ==> "Inne" in Keys(CategoryTotals(expenses))
    ensures forall i :: 0 <= i < |CategoryTotals(expenses)| ==> CategoryTotals(expenses)[i].0 != ""
  {
    var r := CategoryTotals(expenses);
    var ks := MapSeq(expenses, CategoryKey);
    assert Keys(r) == Distinct(ks);
    forall i | 0 <= i < |expenses| && expenses[i].category == ""
      ensures "Inne" in Keys(r)
    {
      assert ks[i] == "Inne";
    }
    forall i | 0 <= i < |r|
      ensures r[i].0 != ""
    {
      assert Keys(r)[i] in ks;
    }
  }

  /** `formatDate(expense.date)`. */
  function DateKey(e: Expense): string {
    FormatDate(e.date)
  }

  /** `groupExpensesByDate(expenses)`: the expenses of each formatted date, in input order. */
  function GroupByDate(expenses: seq<Expense>): (r: seq<(string, seq<Expense>)>)
    ensures GroupsOf(r, expenses, DateKey)
  {
    GroupBy(expenses, DateKey)
  }

  /**
   * Every expense lies in exactly one date group: the groups together hold
   * each expense as often as the input does.
   */
  lemma GroupByDatePartition(expenses: seq<Expense>)
    ensures multiset(Flatten(GroupByDate(expenses))) == multiset(expenses)
    ensures NoDuplicates(Keys(GroupByDate(expenses)))
  {
    GroupByFlatten(expenses, DateKey);
  }

  /** For years written without a minus sign, two expenses share a date group exactly when they fall on the same day. */
  lemma DateGroupIsDay(a: Expense, b: Expense)
    requires DateOf(a.date).year >= 0 && DateOf(b.date).year >= 0
    ensures DateKey(a) == DateKey(b) <==> DayIndex(a.date) == DayIndex(b.date)
  {
    FormatDateSameDay(a.date, b.date);
  }
}

=== FILE: calendar.dfy ===
/**
 * The calendar the budget code runs on: JavaScript `Date` reduced to one
 * time zone without daylight saving.
 *
 * An instant is a whole number of milliseconds; every day lasts exactly
 * `DayMs` milliseconds and day number 0 begins at local midnight of
 * 0000-01-01 in the proleptic Gregorian calendar. Months are numbered
 * 0..11, as `Date.prototype.getMonth` numbers them.
 */
module Calendar {

  type Instant = int

  const DayMs: int := 86_400_000

  /** A calendar date as `getFullYear`, `getMonth` and `getDate` report it. */
  datatype CivilDate = CivilDate(year: int, month: int, day: int)

  /** `Math.ceil(a / b)` for an integer numerator and a positive divisor. */
  function CeilDiv(a: int, b: int): (r: int)
    requires b > 0
    ensures (r - 1) * b < a <= r * b
  {
    -((-a) / b)
  }

  predicate IsLeap(y: int) {
    y % 4 == 0 && (y % 100 != 0 || y % 400 == 0)
  }

  function YearLength(y: int): int {
    if IsLeap(y) then 366 else 365
  }

  /** Day number of January 1st of year `y`. */
  function DaysBeforeYear(y: int): int {
    365 * y + (y + 3) / 4 - (y + 99) / 100 + (y + 399) / 400
  }

  /** Days of the year that precede month `m` (`m == 12` gives the year's length). */
  function DaysBeforeMonth(m: int, leap: bool): int
    requires 0 <= m <= 12
  {
    var plain := match m
      case 0 => 0
      case 1 => 31
      case 2 => 59
      case 3 => 90
      case 4 => 120
      case 5 => 151
      case 6 => 181
      case 7 => 212
      case 8 => 243
      case 9 => 273
      case 10 => 304
      case 11 => 334
      case _ => 365;
    if leap && m >= 2 then plain + 1 else plain
  }

  function DaysInMonth(y: int, m: int): int
    requires 0 <= m < 12
  {
    DaysBeforeMonth(m + 1, IsLeap(y)) - DaysBeforeMonth(m, IsLeap(y))
  }

  predicate ValidDate(c: CivilDate) {
    0 <= c.month < 12 && 1 <= c.day <= DaysInMonth(c.year, c.month)
  }

  /** Day number of day `d` of month `m` of year `y`; `d` may lie outside the month. */
  function DayNumber(y: int, m: int, d: int): int
    requires 0 <= m < 12
  {
    DaysBeforeYear(y) + DaysBeforeMonth(m, IsLeap(y)) + d - 1
  }

  /** Day number of the first day of month `m` of year `y`, `m` any integer (month -1 is December of `y - 1`). */
  function MonthStart(y: int, m: int): int {
    DayNumber(y + m / 12, m % 12, 1)
  }

  /** `new Date(y, m, d)`: local midnight, month and day overflowing into neighbouring months and years. */
  function MkDate(y: int, m: int, d: int): Instant {
    (MonthStart(y, m) + d - 1) * DayMs
  }

  /** `new Date(y, m, d)` is the midnight that starts day `d` of month `m`. */
  lemma MkDateMidnight(y: int, m: int, d: int)
    ensures MkDate(y, m, d) % DayMs == 0
    ensures DayIndex(MkDate(y, m, d)) == MonthStart(y, m) + d - 1
  {
  }

  /** Number of the day an instant falls on. */
  function DayIndex(t: Instant): int {
    t / DayMs
  }

  // ---------------------------------------------------------------------
  // Year and month arithmetic

  lemma YearStep(y: int)
    ensures DaysBeforeYear(y + 1) == DaysBeforeYear(y) + YearLength(y)
  {
    QuarterStep(y);
    CenturyStep(y);
    QuadCenturyStep(y);
    LeapCount(y);
  }

  /** A year's length counts its divisibility by 4, 100 and 400. */
  lemma LeapCount(y: int)
    ensures YearLength(y) == 365 + (if y % 4 == 0 then 1 else 0) - (if y % 100 == 0 then 1 else 0)
                                 + (if y % 400 == 0 then 1 else 0)
  {
    if y % 400 == 0 {
      assert y == 100 * (4 * (y / 400));
    }
    if y % 100 == 0 {
      assert y == 4 * (25 * (y / 100));
    }
  }

  lemma QuarterStep(y: int)
    ensures (y + 4) / 4 == (y + 3) / 4 + (if y % 4 == 0 then 1 else 0)
  {
  }

  lemma CenturyStep(y: int)
    ensures (y + 100) / 100 == (y + 99) / 100 + (if y % 100 == 0 then 1 else 0)
  {
  }

  lemma QuadCenturyStep(y: int)
    ensures (y + 400) / 400 == (y + 399) / 400 + (if y % 400 == 0 then 1 else 0)
  {
  }

  lemma {:induction false} DaysBeforeYearMonotone(a: int, b: int)
    requires a <= b
    ensures DaysBeforeYear(a) <= DaysBeforeYear(b)
    decreases b - a
  {
    if a < b {
      YearStep(a);
      DaysBeforeYearMonotone(a + 1, b);
    }
  }

  lemma MonthLengths(y: int, m: int)
    requires 0 <= m < 12
    ensures 28 <= DaysInMonth(y, m) <= 31
    ensures DaysBeforeMonth(12, IsLeap(y)) == YearLength(y)
  {
  }

  lemma DaysBeforeMonthMonotone(a: int, b: int, leap: bool)
    requires 0 <= a <= b <= 12
    ensures DaysBeforeMonth(a, leap) <= DaysBeforeMonth(b, leap)
    ensures a < b ==> DaysBeforeMonth(a, leap) < DaysBeforeMonth(b, leap)
  {
  }

  /** The first day of the next month follows the last day of this one. */
  lemma MonthStartStep(y: int, m: int)
    ensures 0 <= m % 12 < 12
    ensures MonthStart(y, m + 1) == MonthStart(y, m) + DaysInMonth(y + m / 12, m % 12)
  {
    var yy, mm := y + m / 12, m % 12;
    if mm == 11 {
      assert (m + 1) / 12 == m / 12 + 1 && (m + 1) % 12 == 0;
      YearStep(yy);
      MonthLengths(yy, 11);
    } else {
      assert (m + 1) / 12 == m / 12 && (m + 1) % 12 == mm + 1;
    }
  }

  /** Within a year, month `m` starts on day 1 of that month. */
  lemma MonthStartInYear(y: int, m: int)
    requires 0 <= m < 12
    ensures MonthStart(y, m) == DayNumber(y, m, 1)
  {
    assert m / 12 == 0 && m % 12 == m;
  }

  /** Within a year, the next month starts when this one has run its length. */
  lemma MonthStartNext(y: int, m: int)
    requires 0 <= m < 12
    ensures MonthStart(y, m + 1) == MonthStart(y, m) + DaysInMonth(y, m)
  {
    MonthStartStep(y, m);
    assert m / 12 == 0 && m % 12 == m;
  }

  /** Within a year, the previous month started at least 28 days before this one. */
  lemma MonthStartPrevious(y: int, m: int)
    requires 0 <= m < 12
    ensures MonthStart(y, m - 1) + 28 <= MonthStart(y, m)
  {
    MonthStartStep(y, m - 1);
    if m == 0 {
      assert (m - 1) / 12 == -1 && (m - 1) % 12 == 11;
      MonthLengths(y - 1, 11);
    } else {
      assert (m - 1) / 12 == 0 && (m - 1) % 12 == m - 1;
      MonthLengths(y, m - 1);
    }
  }

  // ---------------------------------------------------------------------
  // From day numbers back to dates

  function YearUp(n: int, y: int): (r: int)
    requires DaysBeforeYear(y) <= n
    ensures DaysBeforeYear(r) <= n < DaysBeforeYear(r + 1)
    decreases n - DaysBeforeYear(y)
  {
    YearStep(y);
    if n < DaysBeforeYear(y + 1) then y else YearUp(n, y + 1)
  }

  function YearDown(n: int, y: int): (r: int)
    requires n < DaysBeforeYear(y + 1)
    ensures DaysBeforeYear(r) <= n < DaysBeforeYear(r + 1)
    decreases DaysBeforeYear(y + 1) - n
  {
    YearStep(y);
    if DaysBeforeYear(y) <= n then y else YearDown(n, y - 1)
  }

  /** The year day number `n` falls in. */
  function YearOfDay(n: int): (r: int)
    ensures DaysBeforeYear(r) <= n < DaysBeforeYear(r + 1)
  {
    if n >= 0 then YearUp(n, 0) else YearDown(n, -1)
  }

  function MonthFrom(doy: int, leap: bool, m: int): (r: int)
    requires 0 <= m < 12
    requires DaysBeforeMonth(m, leap) <= doy < DaysBeforeMonth(12, leap)
    ensures m <= r < 12
    ensures DaysBeforeMonth(r, leap) <= doy < DaysBeforeMonth(r + 1, leap)
    decreases 12 - m
  {
    if doy < DaysBeforeMonth(m + 1, leap) then m else MonthFrom(doy, leap, m + 1)
  }

  /** The calendar date of day number `n`. */
  function DateOfDay(n: int): (c: CivilDate)
    ensures ValidDate(c)
    ensures DayNumber(c.year, c.month, c.day) == n
  {
    var y := YearOfDay(n);
    YearStep(y);
    MonthLengths(y, 0);
    var doy := n - DaysBeforeYear(y);
    var m := MonthFrom(doy, IsLeap(y), 0);
    CivilDate(y, m, doy - DaysBeforeMonth(m, IsLeap(y)) + 1)
  }

  /** The local calendar date of an instant (`getFullYear`, `getMonth`, `getDate`). */
  function DateOf(t: Instant): (c: CivilDate)
    ensures ValidDate(c)
    ensures DayNumber(c.year, c.month, c.day) == DayIndex(t)
  {
    DateOfDay(DayIndex(t))
  }

  /** A valid date lies inside its own year. */
  lemma DayNumberInYear(c: CivilDate)
    requires ValidDate(c)
    ensures DaysBeforeYear(c.year) <= DayNumber(c.year, c.month, c.day) < DaysBeforeYear(c.year + 1)
  {
    YearStep(c.year);
    MonthLengths(c.year, c.month);
    DaysBeforeMonthMonotone(c.month + 1, 12, IsLeap(c.year));
  }

  /** Distinct valid dates have distinct day numbers. */
  lemma DayNumberInjective(a: CivilDate, b: CivilDate)
    requires ValidDate(a) && ValidDate(b)
    requires DayNumber(a.year, a.month, a.day) == DayNumber(b.year, b.month, b.day)
    ensures a == b
  {
    var n := DayNumber(a.year, a.month, a.day);
    DayNumberInYear(a);
    DayNumberInYear(b);
    YearUnique(a.year, b.year, n);
    var leap := IsLeap(a.year);
    MonthLengths(a.year, a.month);
    MonthLengths(a.year, b.month);
    MonthUnique(a.month, b.month, n - DaysBeforeYear(a.year), leap);
  }

  /** A day number lies in one year only. */
  lemma YearUnique(y1: int, y2: int, n: int)
    requires DaysBeforeYear(y1) <= n < DaysBeforeYear(y1 + 1)
    requires DaysBeforeYear(y2) <= n < DaysBeforeYear(y2 + 1)
    ensures y1 == y2
  {
    if y1 < y2 {
      DaysBeforeYearMonotone(y1 + 1, y2);
    } else if y2 < y1 {
      DaysBeforeYearMonotone(y2 + 1, y1);
    }
  }

  /** A day of the year lies in one month only. */
  lemma MonthUnique(m1: int, m2: int, doy: int, leap: bool)
    requires 0 <= m1 < 12 && 0 <= m2 < 12
    requires DaysBeforeMonth(m1, leap) <= doy < DaysBeforeMonth(m1 + 1, leap)
    requires DaysBeforeMonth(m2, leap) <= doy < DaysBeforeMonth(m2 + 1, leap)
    ensures m1 == m2
  {
    if m1 < m2 {
      DaysBeforeMonthMonotone(m1 + 1, m2, leap);
    } else if m2 < m1 {
      DaysBeforeMonthMonotone(m2 + 1, m1, leap);
    }
  }

  /** Reading back the date of a valid date's day number gives that date. */
  lemma DateOfDayNumber(c: CivilDate)
    requires ValidDate(c)
    ensures DateOfDay(DayNumber(c.year, c.month, c.day)) == c
  {
    var r := DateOfDay(DayNumber(c.year, c.month, c.day));
    DayNumberInjective(r, c);
  }

  /** The date `MkDate` lands on when the day needs no overflow. */
  lemma DateOfMkDate(y: int, m: int, d: int)
    requires 1 <= d <= 28
    ensures DateOf(MkDate(y, m, d)) == CivilDate(y + m / 12, m % 12, d)
  {
    var yy, mm := y + m / 12, m % 12;
    DayOfMonthStart(yy, mm, d);
    assert MonthStart(y, m) == DayNumber(yy, mm, 1);
    assert DayIndex(MkDate(y, m, d)) == DayNumber(yy, mm, d);
  }

  /** Day `d <= 28` of a month reads back as that date. */
  lemma DayOfMonthStart(y: int, m: int, d: int)
    requires 0 <= m < 12 && 1 <= d <= 28
    ensures DateOfDay(DayNumber(y, m, d)) == CivilDate(y, m, d)
    ensures DayNumber(y, m, d) == DayNumber(y, m, 1) + d - 1
  {
    MonthLengths(y, m);
    DateOfDayNumber(CivilDate(y, m, d));
  }


  /** Midnight of the day an instant falls on is no later than the instant. */
  lemma DayIndexBounds(t: Instant)
    ensures DayIndex(t) * DayMs <= t < (DayIndex(t) + 1) * DayMs
  {
  }
}

=== FILE: date_text.dfy ===
/**
 * Dates as text: `formatDate`'s "DD-MM-YYYY" keys, the
 * `split('-').reverse().join('-')` re-ordering the sort comparators apply
 * to them, and `new Date("YYYY-MM-DD")` reading the result back.
 */
module DateText {
  import opened Wrappers
  import opened Calendar
  import opened Text

  /** A month and a day `getMonth` and `getDate` can report: what the formatting needs of a date. */
  predicate Printable(c: CivilDate) {
    0 <= c.month < 12 && 1 <= c.day <= 31
  }

  lemma ValidIsPrintable(c: CivilDate)
    requires ValidDate(c)
    ensures Printable(c)
  {
    MonthLengths(c.year, c.month);
  }

  /** "DD-MM-YYYY": day and month padded to two digits, then the year as `String` prints it. */
  function DayMonthYear(c: CivilDate): string
    requires Printable(c)
  {
    Pad2(NatToString(c.day)) + "-" + Pad2(NatToString(c.month + 1)) + "-" + IntToString(c.year)
  }

  /** `formatDate(t)`: the local date of `t` as "DD-MM-YYYY". */
  function FormatDate(t: Instant): string {
    ValidIsPrintable(DateOf(t));
    DayMonthYear(DateOf(t))
  }

  /** The same date written year first: "YYYY-MM-DD". */
  function IsoDate(c: CivilDate): string
    requires Printable(c)
  {
    IntToString(c.year) + "-" + Pad2(NatToString(c.month + 1)) + "-" + Pad2(NatToString(c.day))
  }

  // ---------------------------------------------------------------------
  // split, reverse, join

  /** Position of the first `sep` in `s`, or `|s|`. */
  function FindChar(s: string, sep: char): (i: nat)
    ensures i <= |s|
    ensures i < |s| ==> s[i] == sep
    ensures forall j :: 0 <= j < i ==> s[j] != sep
  {
    if |s| == 0 then 0 else if s[0] == sep then 0 else 1 + FindChar(s[1..], sep)
  }

  /** `s.split(sep)`. */
  function Split(s: string, sep: char): (r: seq<string>)
    ensures |r| >= 1
    decreases |s|
  {
    var i := FindChar(s, sep);
    if i == |s| then [s] else [s[..i]] + Split(s[i + 1..], sep)
  }

  /** `parts.join(sep)`. */
  function Join(parts: seq<string>, sep: char): string {
    if |parts| == 0 then ""
    else if |parts| == 1 then parts[0]
    else parts[0] + [sep] + Join(parts[1..], sep)
  }

  /** `parts.reverse()`. */
  function Reverse<T>(parts: seq<T>): (r: seq<T>)
    ensures |r| == |parts|
    ensures forall i :: 0 <= i < |parts| ==> r[i] == parts[|parts| - 1 - i]
  {
    seq(|parts|, i requires 0 <= i < |parts| => parts[|parts| - 1 - i])
  }

  /** `s.split('-').reverse().join('-')`. */
  function Reorder(s: string): string {
    Join(Reverse(Split(s, '-')), '-')
  }

  /** Splitting a field free of `sep` off the front. */
  lemma SplitFront(a: string, b: string, sep: char)
    requires sep !in a
    ensures Split(a + [sep] + b, sep) == [a] + Split(b, sep)
  {
    var s := a + [sep] + b;
    assert FindChar(s, sep) == |a| by {
      FindCharAt(s, sep, |a|);
    }
    assert s[..|a|] == a;
    assert s[|a| + 1..] == b;
  }

  lemma {:induction false} FindCharAt(s: string, sep: char, k: nat)
    requires k < |s| && s[k] == sep
    requires forall j :: 0 <= j < k ==> s[j] != sep
    ensures FindChar(s, sep) == k
  {
    if k > 0 {
      FindCharAt(s[1..], sep, k - 1);
    }
  }

  /** A field free of `sep` is not split. */
  lemma SplitWhole(a: string, sep: char)
    requires sep !in a
    ensures Split(a, sep) == [a]
  {
  }

  /** Digits contain no dash. */
  lemma DigitsHaveNoDash(s: string)
    requires AllDigits(s)
    ensures '-' !in s
  {
  }

  /** Three dash-free fields joined by dashes split back into those fields. */
  lemma SplitThree(a: string, b: string, c: string)
    requires '-' !in a && '-' !in b && '-' !in c
    ensures Split(a + "-" + b + "-" + c, '-') == [a, b, c]
  {
    assert a + "-" + b + "-" + c == a + ['-'] + (b + ['-'] + c);
    SplitFront(a, b + ['-'] + c, '-');
    SplitFront(b, c, '-');
    SplitWhole(c, '-');
  }

  /** Reversing three dash-free fields. */
  lemma ReorderThree(a: string, b: string, c: string)
    requires '-' !in a && '-' !in b && '-' !in c
    ensures Reorder(a + "-" + b + "-" + c) == c + "-" + b + "-" + a
  {
    SplitThree(a, b, c);
    var rev := Reverse([a, b, c]);
    assert rev == [c, b, a];
    assert rev[1..] == [b, a];
    assert rev[1..][1..] == [a];
    assert Join([a], '-') == a;
    assert Join([b, a], '-') == b + ['-'] + a;
    assert Join(rev, '-') == c + ['-'] + (b + ['-'] + a);
  }

  /** The three fields of a formatted date of a year without a minus sign. */
  lemma FormatDateFields(c: CivilDate)
    requires Printable(c) && c.year >= 0
    ensures Split(DayMonthYear(c), '-') == [Pad2(NatToString(c.day)), Pad2(NatToString(c.month + 1)), NatToString(c.year)]
  {
    Pad2Digits(c.day);
    Pad2Digits(c.month + 1);
    SplitThree(Pad2(NatToString(c.day)), Pad2(NatToString(c.month + 1)), NatToString(c.year));
  }

  /**
   * Reversing the dash-separated fields of a "DD-MM-YYYY" key gives the
   * "YYYY-MM-DD" text of the same date, for every year without a minus sign.
   */
  lemma ReorderDayMonthYear(c: CivilDate)
    requires Printable(c) && c.year >= 0
    ensures Reorder(DayMonthYear(c)) == IsoDate(c)
  {
    Pad2Digits(c.day);
    Pad2Digits(c.month + 1);
    DigitsHaveNoDash(Pad2(NatToString(c.day)));
    DigitsHaveNoDash(Pad2(NatToString(c.month + 1)));
    DigitsHaveNoDash(NatToString(c.year));
    ReorderThree(Pad2(NatToString(c.day)), Pad2(NatToString(c.month + 1)), NatToString(c.year));
  }

  /** `formatDate`'s key, re-ordered, is the "YYYY-MM-DD" text of the same date. */
  lemma ReorderFormatDate(t: Instant)
    requires DateOf(t).year >= 0
    ensures Printable(DateOf(t))
    ensures Reorder(FormatDate(t)) == IsoDate(DateOf(t))
  {
    ValidIsPrintable(DateOf(t));
    ReorderDayMonthYear(DateOf(t));
  }

  // ---------------------------------------------------------------------
  // Reading dates back

  /** Reads "DD-MM-YYYY" back into a date when the three fields are digits. */
  function ParseDayMonthYear(s: string): Option<CivilDate> {
    FieldsToDate(Split(s, '-'))
  }

  function FieldsToDate(parts: seq<string>): Option<CivilDate> {
    if |parts| == 3 && AllDigits(parts[0]) && AllDigits(parts[1]) && AllDigits(parts[2]) then
      Some(CivilDate(DigitsValue(parts[2]), DigitsValue(parts[1]) - 1, DigitsValue(parts[0])))
    else None
  }

  /** Three dash-free fields joined by dashes are read field by field. */
  lemma ParseThree(dd: string, mm: string, yy: string)
    requires '-' !in dd && '-' !in mm && '-' !in yy
    ensures ParseDayMonthYear(dd + "-" + mm + "-" + yy) == FieldsToDate([dd, mm, yy])
  {
    SplitThree(dd, mm, yy);
  }

  /** "DD-MM-YYYY" loses nothing for years without a minus sign: it reads back as the date. */
  lemma ParseDayMonthYearOf(c: CivilDate)
    requires Printable(c) && c.year >= 0
    ensures ParseDayMonthYear(DayMonthYear(c)) == Some(c)
  {
    var dd, mm, yy := Pad2(NatToString(c.day)), Pad2(NatToString(c.month + 1)), NatToString(c.year);
    assert DayMonthYear(c) == dd + "-" + mm + "-" + yy;
    Pad2Digits(c.day);
    Pad2Digits(c.month + 1);
    NatToStringValue(c.year);
    DigitsHaveNoDash(dd);
    DigitsHaveNoDash(mm);
    DigitsHaveNoDash(yy);
    ParseThree(dd, mm, yy);
    assert FieldsToDate([dd, mm, yy]) == Some(c);
  }

  /** `formatDate`'s key reads back as the local date it was made from. */
  lemma ParseFormatDate(t: Instant)
    requires DateOf(t).year >= 0
    ensures ParseDayMonthYear(FormatDate(t)) == Some(DateOf(t))
  {
    ValidIsPrintable(DateOf(t));
    ParseDayMonthYearOf(DateOf(t));
  }

  /**
   * Two instants of years without a minus sign get the same `formatDate`
   * key exactly when they fall on the same day, so grouping by the key is
   * grouping by calendar day.
   */
  lemma FormatDateSameDay(a: Instant, b: Instant)
    requires DateOf(a).year >= 0 && DateOf(b).year >= 0
    ensures FormatDate(a) == FormatDate(b) <==> DayIndex(a) == DayIndex(b)
  {
    if FormatDate(a) == FormatDate(b) {
      ParseFormatDate(a);
      ParseFormatDate(b);
      assert DateOf(a) == DateOf(b);
    }
  }

  /**
   * `new Date(s)` for "YYYY-MM-DD" with a four-digit year, as a day number;
   * `None` for any other text (the model does not follow the engine's
   * fallback parser).
   */
  function IsoDayNumber(s: string): Option<int> {
    if |s| == 10 && s[4] == '-' && s[7] == '-'
       && AllDigits(s[..4]) && AllDigits(s[5..7]) && AllDigits(s[8..])
    then
      var y, m, d := DigitsValue(s[..4]), DigitsValue(s[5..7]), DigitsValue(s[8..]);
      if 1 <= m <= 12 && 1 <= d <= 31 then Some(DayNumber(y, m - 1, d)) else None
    else None
  }

  /** Parsing "YYYY-MM-DD" assembled from a four-digit year and two-digit month and day that spell `y`, `m + 1` and `d`. */
  lemma IsoDayNumberOfFields(yy: string, mm: string, dd: string, y: int, m: int, d: int)
    requires |yy| == 4 && |mm| == 2 && |dd| == 2
    requires AllDigits(yy) && AllDigits(mm) && AllDigits(dd)
    requires DigitsValue(yy) == y && DigitsValue(mm) == m + 1 && DigitsValue(dd) == d
    requires 0 <= m < 12 && 1 <= d <= 31
    ensures IsoDayNumber(yy + "-" + mm + "-" + dd) == Some(DayNumber(y, m, d))
  {
    IsoSlices(yy, mm, dd);
  }

  /** Where the fields of "YYYY-MM-DD" sit. */
  lemma IsoSlices(yy: string, mm: string, dd: string)
    requires |yy| == 4 && |mm| == 2 && |dd| == 2
    ensures var s := yy + "-" + mm + "-" + dd;
            && |s| == 10 && s[4] == '-' && s[7] == '-'
            && s[..4] == yy && s[5..7] == mm && s[8..] == dd
  {
    var s := yy + "-" + mm + "-" + dd;
    assert s[..4] == yy;
    assert s[5..7] == mm;
    assert s[8..] == dd;
  }

  /** "YYYY-MM-DD" of a date with a four-digit year reads back as its day number. */
  lemma IsoDayNumberOfDate(c: CivilDate)
    requires Printable(c) && 1000 <= c.year <= 9999
    ensures IsoDayNumber(IsoDate(c)) == Some(DayNumber(c.year, c.month, c.day))
  {
    var yy, mm, dd := NatToString(c.year), Pad2(NatToString(c.month + 1)), Pad2(NatToString(c.day));
    assert IsoDate(c) == yy + "-" + mm + "-" + dd;
    NatToStringLength(c.year);
    NatToStringValue(c.year);
    Pad2Digits(c.day);
    Pad2Digits(c.month + 1);
    IsoDayNumberOfFields(yy, mm, dd, c.year, c.month, c.day);
  }

  /**
   * The sort comparators' round trip: for a four-digit year, re-ordering a
   * `formatDate` key and parsing it gives back the day the key was made from.
   */
  lemma IsoDayNumberOfKey(t: Instant)
    requires 1000 <= DateOf(t).year <= 9999
    ensures IsoDayNumber(Reorder(FormatDate(t))) == Some(DayIndex(t))
  {
    ReorderFormatDate(t);
    IsoDayNumberOfDate(DateOf(t));
  }

  /**
   * The sort key both date-ordered lists use for a `formatDate` key:
   * `new Date(key.split('-').reverse().join('-'))`, counted in days. Text
   * that does not parse (a year outside 1000 to 9999) gets day 0 here,
   * where the engine would give `NaN`.
   */
  function KeyDay(key: string): real {
    match IsoDayNumber(Reorder(key))
    case Some(n) => n as real
    case None => 0.0
  }

  /** For a four-digit year, the sort key of a `formatDate` key is the day it was made from. */
  lemma KeyDayOfDate(t: Instant)
    requires 1000 <= DateOf(t).year <= 9999
    ensures KeyDay(FormatDate(t)) == DayIndex(t) as real
  {
    IsoDayNumberOfKey(t);
  }
}

=== FILE: expense_chart.dfy ===
/**
 * The spending chart: the billing period it shows, the daily totals in
 * date order and the category totals from largest to smallest. "Now" is a
 * parameter.
 */
module ExpenseChart {
  import opened Wrappers
  import opened Calendar
  import opened Lists
  import opened Grouping
  import opened Records
  import opened Renewal
  import opened DateText
  import opened BudgetUtils

  /** `budget.renewalDay || 1`: an unset renewal day counts as the 1st. */
  function ChartRenewalDay(b: Budget): (d: int)
    ensures 0 <= b.renewalDay <= 31 ==> 1 <= d <= 31
    ensures b.renewalDay != 0 ==> d == b.renewalDay
  {
    if b.renewalDay == 0 then 1 else b.renewalDay
  }

  datatype Window = Window(start: Instant, end: Instant)

  /**
   * The chart's own computation of the period from today's date: it opens
   * on the renewal day of this month or, before that day, of the month
   * before, and ends at the midnight that starts the day before the next
   * renewal. It is the forecast's period, ending one day early.
   */
  function WindowOn(today: CivilDate, renewalDay: int): (w: Window)
    ensures w.start == PeriodStart(today, renewalDay)
    ensures w.end == PeriodEnd(today, renewalDay) - DayMs
    ensures w.start % DayMs == 0 && w.end % DayMs == 0
  {
    MkDateMidnight(today.year, OpeningMonth(today, renewalDay), renewalDay);
    if today.day >= renewalDay then
      DayBefore(today.year, today.month + 1, renewalDay);
      Window(MkDate(today.year, today.month, renewalDay), MkDate(today.year, today.month + 1, renewalDay - 1))
    else
      DayBefore(today.year, today.month, renewalDay);
      Window(MkDate(today.year, today.month - 1, renewalDay), MkDate(today.year, today.month, renewalDay - 1))
  }

  /** Day `d - 1` of a month, as `new Date` reads it, starts one day before day `d`, at a midnight. */
  lemma DayBefore(y: int, m: int, d: int)
    ensures MkDate(y, m, d - 1) == MkDate(y, m, d) - DayMs
    ensures MkDate(y, m, d - 1) % DayMs == 0
  {
    MkDateMidnight(y, m, d - 1);
  }

  /** The window on the date of `now`. */
  function ChartWindow(renewalDay: int, now: Instant): (w: Window)
    ensures w.start == LastRenewal(renewalDay, now)
    ensures w.end == NextRenewal(renewalDay, now) - DayMs
    ensures w.start % DayMs == 0 && w.end % DayMs == 0
  {
    WindowOn(DateOf(now), renewalDay)
  }

  /** A midnight not after now is not after the midnight that starts today. */
  lemma MidnightBeforeNow(start: Instant, now: Instant)
    requires start <= now && start % DayMs == 0
    ensures start <= DayIndex(now) * DayMs
  {
    DayIndexBounds(now);
  }

  /** A midnight after now minus one day is at or after the midnight that starts today. */
  lemma MidnightAfterNow(end: Instant, now: Instant)
    requires now < end + DayMs && end % DayMs == 0
    ensures DayIndex(now) * DayMs <= end
  {
    DayIndexBounds(now);
  }

  /**
   * For a renewal day every month has, the window holds today: it opens
   * at or before now and ends at a midnight no earlier than today's, the
   * midnight of the day before the next renewal day.
   */
  lemma ChartWindowHoldsToday(renewalDay: int, now: Instant)
    requires 1 <= renewalDay <= 28
    ensures var w := ChartWindow(renewalDay, now);
            && w.start <= now
            && DayIndex(now) * DayMs <= w.end
            && w.end % DayMs == 0
            && DateOf(w.end + DayMs).day == renewalDay
  {
    var next := NextRenewal(renewalDay, now);
    var w := ChartWindow(renewalDay, now);
    assert w.end + DayMs == next;
    RenewalOrder(renewalDay, now);
    MidnightAfterNow(w.end, now);
    NextRenewalDate(renewalDay, now);
  }

  /** Within one day, only its first instant is not after its midnight. */
  lemma SameDayNotAfterMidnight(t: Instant, m: Instant)
    requires m % DayMs == 0 && DayIndex(t) == DayIndex(m)
    ensures m <= t
    ensures t <= m <==> t == m
  {
    DayIndexBounds(t);
    DayIndexBounds(m);
  }

  /**
   * On the window's last day only the midnight that starts it is inside:
   * an expense stamped later that day is left out of the chart.
   */
  lemma LastDayOnlyAtMidnight(renewalDay: int, now: Instant, t: Instant)
    requires 1 <= renewalDay <= 28
    requires DayIndex(t) == DayIndex(ChartWindow(renewalDay, now).end)
    ensures var w := ChartWindow(renewalDay, now);
            InRange(t, Some(w.start), Some(w.end)) <==> t == w.end
  {
    var w := ChartWindow(renewalDay, now);
    ChartWindowHoldsToday(renewalDay, now);
    MidnightBeforeNow(w.start, now);
    SameDayNotAfterMidnight(t, w.end);
    InRangeBounds(t, Some(w.start), Some(w.end));
  }

  /** The expenses the chart counts: those dated within the window. */
  function PeriodExpenses(expenses: seq<Expense>, budget: Budget, now: Instant): seq<Expense> {
    var w := ChartWindow(ChartRenewalDay(budget), now);
    FilterByDateRange(expenses, Some(w.start), Some(w.end))
  }

  /** `new Date(a.date.split('-').reverse().join('-'))`, the daily data's sort key. */
  function DailyKey(p: (string, real)): real {
    KeyDay(p.0)
  }

  /** `b.amount - a.amount` as the key of an ascending sort. */
  function AmountDescending(p: (string, real)): real {
    -p.1
  }

  datatype ChartData = ChartData(daily: seq<(string, real)>, categories: seq<(string, real)>)

  /** The two datasets of the in-period expenses. */
  function ChartOf(inPeriod: seq<Expense>): (r: ChartData)
    ensures SortedBy(r.daily, DailyKey)
    ensures SortedBy(r.categories, AmountDescending)
  {
    ChartData(SortBy(GroupTotals(inPeriod, DateKey, Amount), DailyKey),
              SortBy(CategoryTotals(inPeriod), AmountDescending))
  }

  /**
   * The body of the chart's effect: nothing for an empty expense list,
   * otherwise the in-period expenses summed per formatted date in date
   * order, and per category from the largest total down.
   */
  function Chart(expenses: seq<Expense>, budget: Budget, now: Instant): (r: ChartData)
    ensures |expenses| == 0 ==> r == ChartData([], [])
    ensures SortedBy(r.daily, DailyKey)
    ensures SortedBy(r.categories, AmountDescending)
  {
    if |expenses| == 0 then ChartData([], []) else ChartOf(PeriodExpenses(expenses, budget, now))
  }

  /** The category data runs from the largest total to the smallest. */
  lemma CategoriesDescending(expenses: seq<Expense>, budget: Budget, now: Instant)
    ensures var r := Chart(expenses, budget, now);
            forall i, j :: 0 <= i < j < |r.categories| ==> r.categories[i].1 >= r.categories[j].1
  {
    var r := Chart(expenses, budget, now);
    assert forall i, j :: 0 <= i < j < |r.categories| ==> AmountDescending(r.categories[i]) <= AmountDescending(r.categories[j]);
  }

  /** Both datasets add up to the total spent in the period. */
  lemma ChartTotals(expenses: seq<Expense>, budget: Budget, now: Instant)
    ensures var r := Chart(expenses, budget, now);
            var total := Sum(PeriodExpenses(expenses, budget, now), Amount);
            Sum(r.daily, Value) == total && Sum(r.categories, Value) == total
  {
    var inPeriod := PeriodExpenses(expenses, budget, now);
    if |expenses| > 0 {
      SumSortBy(GroupTotals(inPeriod, DateKey, Amount), DailyKey, Value);
      GroupTotalsSum(inPeriod, DateKey, Amount);
      SumSortBy(CategoryTotals(inPeriod), AmountDescending, Value);
      CategoryTotalsSum(inPeriod);
    }
  }

  /**
   * The daily data has one entry per date on which something in the period
   * was spent, no date twice, each holding that date's total; the category
   * data likewise per category, a missing category counting as 'Inne'.
   */
  lemma ChartEntries(expenses: seq<Expense>, budget: Budget, now: Instant)
    ensures var r := Chart(expenses, budget, now);
            var p := PeriodExpenses(expenses, budget, now);
            && DistinctBy(r.daily, KeyOf)
            && (forall i :: 0 <= i < |r.daily| ==> r.daily[i].0 in MapSeq(p, DateKey))
            && (forall i :: 0 <= i < |r.daily| ==> r.daily[i].1 == Sum(Select(p, DateKey, r.daily[i].0), Amount))
            && (|expenses| > 0 ==> forall i :: 0 <= i < |p| ==> DateKey(p[i]) in Keys(r.daily))
            && DistinctBy(r.categories, KeyOf)
            && (forall i :: 0 <= i < |r.categories| ==> r.categories[i].0 in MapSeq(p, CategoryKey))
            && (forall i :: 0 <= i < |r.categories| ==> r.categories[i].1 == Sum(Select(p, CategoryKey, r.categories[i].0), Amount))
            && (|expenses| > 0 ==> forall i :: 0 <= i < |p| ==> CategoryKey(p[i]) in Keys(r.categories))
  {
    var p := PeriodExpenses(expenses, budget, now);
    SortedTotals(p, DateKey, Amount, DailyKey);
    SortedTotals(p, CategoryKey, Amount, AmountDescending);
  }

  /**
   * With four-digit years, the daily data runs from the earliest day to the
   * latest: of two entries, the earlier one holds expenses of an earlier day.
   */
  lemma DailyAscending(expenses: seq<Expense>, budget: Budget, now: Instant)
    requires forall e :: e in expenses ==> 1000 <= DateOf(e.date).year <= 9999
    ensures var r := Chart(expenses, budget, now);
            var p := PeriodExpenses(expenses, budget, now);
            forall i, j, k, l :: 0 <= i < j < |r.daily| && 0 <= k < |p| && 0 <= l < |p|
                                 && r.daily[i].0 == DateKey(p[k]) && r.daily[j].0 == DateKey(p[l])
                                 ==> DayIndex(p[k].date) < DayIndex(p[l].date)
  {
    var r := Chart(expenses, budget, now);
    var p := PeriodExpenses(expenses, budget, now);
    ChartEntries(expenses, budget, now);
    forall i, j, k, l | 0 <= i < j < |r.daily| && 0 <= k < |p| && 0 <= l < |p|
                        && r.daily[i].0 == DateKey(p[k]) && r.daily[j].0 == DateKey(p[l])
      ensures DayIndex(p[k].date) < DayIndex(p[l].date)
    {
      assert p[k] in expenses && p[l] in expenses by {
        FilterByDateRangeExact(expenses, Some(ChartWindow(ChartRenewalDay(budget), now).start),
                               Some(ChartWindow(ChartRenewalDay(budget), now).end), p[k]);
        FilterByDateRangeExact(expenses, Some(ChartWindow(ChartRenewalDay(budget), now).start),
                               Some(ChartWindow(ChartRenewalDay(budget), now).end), p[l]);
        assert p[k] in multiset(p) && p[l] in multiset(p);
      }
      KeyDayOfDate(p[k].date);
      KeyDayOfDate(p[l].date);
      DateGroupIsDay(p[k], p[l]);
    }
  }
}

=== FILE: expense_form.dfy ===
/**
 * The new-expense form: the amount, date and category are checked, the
 * description, shop and duration are taken as typed, and a valid form
 * becomes the draft handed to `addExpense`. `new Date(text)` for the date
 * field is the parameter `parseDate`.
 */
module ExpenseForm {
  import opened Wrappers
  import opened Calendar
  import opened Records
  import opened Fields

  datatype Name = Amount | Date | Category | Description | Shop | DurationField

  datatype Form = Form(amount: Field, date: string, category: string, description: string, shop: string, duration: Field)

  /** Only the amount, date and category have a message slot. */
  datatype Errors = Errors(amount: string, date: string, category: string)

  const AmountRequired: string := "Kwota jest wymagana"
  const AmountInvalid: string := "Kwota musi być liczbą większą od zera"
  const DateRequired: string := "Data jest wymagana"
  const CategoryRequired: string := "Kategoria jest wymagana"

  /** The amount's complaint, if any: required, and a number above zero. */
  function CheckAmount(f: Field): Option<string> {
    if Blank(f) then Some(AmountRequired)
    else if f.number.None? || f.number.value <= 0.0 then Some(AmountInvalid)
    else None
  }

  /** The date's complaint, if any: it is only required. */
  function CheckDate(date: string): Option<string> {
    if date == "" then Some(DateRequired) else None
  }

  /** The category's complaint, if any: it is only required. */
  function CheckCategory(category: string): Option<string> {
    if category == "" then Some(CategoryRequired) else None
  }

  function Report(check: Option<string>, shown: string): string {
    match check
    case Some(m) => m
    case None => shown
  }

  datatype Validation = Validation(valid: bool, errors: Errors)

  /**
   * `validateForm`: the form is valid exactly when the amount is a number
   * above zero and a date and a category are given. An empty amount gets
   * its "required" message, a filled one that fails its "invalid" message;
   * an empty date or category gets its "required" message; a field that
   * passes keeps the message already shown.
   */
  function Validate(form: Form, shown: Errors): (v: Validation)
    ensures v.valid <==>
              && !Blank(form.amount) && form.amount.number.Some? && form.amount.number.value > 0.0
              && form.date != "" && form.category != ""
    ensures v.errors.amount ==
              if Blank(form.amount) then AmountRequired
              else if form.amount.number.None? || form.amount.number.value <= 0.0 then AmountInvalid
              else shown.amount
    ensures v.errors.date == if form.date == "" then DateRequired else shown.date
    ensures v.errors.category == if form.category == "" then CategoryRequired else shown.category
  {
    var a, d, c := CheckAmount(form.amount), CheckDate(form.date), CheckCategory(form.category);
    Validation(a.None? && d.None? && c.None?,
               Errors(Report(a, shown.amount), Report(d, shown.date), Report(c, shown.category)))
  }

  /** The description, shop and duration never decide whether the form is valid, nor what it reports. */
  lemma FreeFieldsNeverBlock(form: Form, shown: Errors, description: string, shop: string, duration: Field)
    ensures Validate(form.(description := description, shop := shop, duration := duration), shown)
         == Validate(form, shown)
  {
  }

  /** `handleSubmit`: the draft built from a valid form, or nothing. */
  function Submit(form: Form, shown: Errors, parseDate: string -> Instant): (r: (Option<Draft>, Errors))
    ensures r.1 == Validate(form, shown).errors
    ensures r.0.Some? <==> Validate(form, shown).valid
  {
    var v := Validate(form, shown);
    if v.valid then
      (Some(Draft(form.amount.number.value, parseDate(form.date), form.category, form.description, form.shop,
                  ParseDuration(form.duration))), v.errors)
    else (None, v.errors)
  }

  /**
   * A submitted draft carries the amount's number, which is above zero, the
   * parsed date, the category, description and shop as typed, and the
   * duration read by `parseInt`, or none when that field was left empty.
   */
  lemma SubmittedDraft(form: Form, shown: Errors, parseDate: string -> Instant)
    requires Submit(form, shown, parseDate).0.Some?
    ensures var d := Submit(form, shown, parseDate).0.value;
            && Some(d.amount) == form.amount.number && d.amount > 0.0
            && d.date == parseDate(form.date)
            && d.category == form.category && d.category != ""
            && d.description == form.description && d.shop == form.shop
            && (Blank(form.duration) <==> d.duration == NoDuration)
            && (ParseInt(form.duration).Some? && !Blank(form.duration) ==> d.duration == Days(ParseInt(form.duration).value))
  {
  }

  function ErrorOf(errors: Errors, n: Name): Option<string> {
    match n
    case Amount => Some(errors.amount)
    case Date => Some(errors.date)
    case Category => Some(errors.category)
    case _ => None
  }

  /** `handleChange`: the named field takes the new text; a message slot of that name is cleared. */
  function Change(form: Form, shown: Errors, n: Name, text: string, value: Field): (Form, Errors) {
    match n
    case Amount => (form.(amount := value), shown.(amount := ""))
    case Date => (form.(date := text), shown.(date := ""))
    case Category => (form.(category := text), shown.(category := ""))
    case Description => (form.(description := text), shown)
    case Shop => (form.(shop := text), shown)
    case DurationField => (form.(duration := value), shown)
  }

  /**
   * Typing clears a message only in the amount, date or category slot, and
   * only the slot of the field typed into.
   */
  lemma ChangeClearsOwnMessage(form: Form, shown: Errors, n: Name, text: string, value: Field, m: Name)
    ensures var e := Change(form, shown, n, text, value).1;
            ErrorOf(e, m) == if m == n && ErrorOf(shown, m).Some? then Some("") else ErrorOf(shown, m)
  {
  }
}

=== FILE: expense_list.dfy ===
/**
 * The expense list: the category options of the filter, the search and
 * category filters, the newest-first order, and the date groups it shows,
 * newest date first.
 */
module ExpenseList {
  import opened Calendar
  import opened Lists
  import opened Grouping
  import opened Text
  import opened Records
  import opened DateText
  import opened BudgetUtils

  function CategoryOf(e: Expense): string {
    e.category
  }

  function NonEmpty(s: string): bool {
    s != ""
  }

  /** `[...new Set(expenses.map(e => e.category).filter(Boolean))]`. */
  function CategoryOptions(expenses: seq<Expense>): (r: seq<string>)
    ensures NoDuplicates(r)
  {
    Distinct(Filter(MapSeq(expenses, CategoryOf), NonEmpty))
  }

  /**
   * The options are exactly the non-empty categories the expenses carry,
   * each once, in order of first appearance.
   */
  lemma CategoryOptionsExact(expenses: seq<Expense>, c: string)
    ensures c in CategoryOptions(expenses) <==> c != "" && exists i :: 0 <= i < |expenses| && expenses[i].category == c
  {
    var cats := MapSeq(expenses, CategoryOf);
    FilterMembers(cats, NonEmpty, c);
    if c != "" && exists i :: 0 <= i < |expenses| && expenses[i].category == c {
      var i :| 0 <= i < |expenses| && expenses[i].category == c;
      assert cats[i] == c;
    }
  }

  /**
   * The search test for one expense, with the term already lower-cased: the
   * description, or else the shop, is non-empty and contains the term once
   * lower-cased.
   */
  function Matches(term: string): Expense -> bool {
    (e: Expense) =>
      (e.description != "" && Includes(ToLower(e.description), term))
      || (e.shop != "" && Includes(ToLower(e.shop), term))
  }

  function HasCategory(category: string): Expense -> bool {
    (e: Expense) => e.category == category
  }

  /** `new Date(b.date) - new Date(a.date)` as the key of an ascending sort. */
  function Newest(e: Expense): real {
    -(e.date as real)
  }

  /** The search filter, applied only for a non-empty search text. */
  function Searched(expenses: seq<Expense>, search: string): seq<Expense> {
    if search != "" then Filter(expenses, Matches(ToLower(search))) else expenses
  }

  /** The category filter, applied only when a category is chosen. */
  function OfCategory(expenses: seq<Expense>, category: string): seq<Expense> {
    if category != "" then Filter(expenses, HasCategory(category)) else expenses
  }

  /** Whether an expense passes both filters. */
  predicate Shown(e: Expense, search: string, category: string) {
    && (search == "" || Matches(ToLower(search))(e))
    && (category == "" || e.category == category)
  }

  /** The body of the list's filtering effect: search, then category, then newest first. */
  function Visible(expenses: seq<Expense>, search: string, category: string): (r: seq<Expense>)
    ensures forall i, j :: 0 <= i < j < |r| ==> r[i].date >= r[j].date
  {
    var r := SortBy(OfCategory(Searched(expenses, search), category), Newest);
    assert forall i, j :: 0 <= i < j < |r| ==> Newest(r[i]) <= Newest(r[j]);
    r
  }

  /**
   * Expenses with the same date, such as the items of one saved receipt,
   * are listed in the order they were recorded.
   */
  lemma VisibleKeepsRecordOrder(expenses: seq<Expense>, search: string, category: string, date: Instant)
    ensures Filter(Visible(expenses, search, category), HasKey(Newest, -(date as real)))
         == Filter(OfCategory(Searched(expenses, search), category), HasKey(Newest, -(date as real)))
  {
    SortByStable(OfCategory(Searched(expenses, search), category), Newest, -(date as real));
  }

  /**
   * The list shows exactly the expenses that pass both filters, each as
   * often as it was recorded: nothing is invented and nothing repeated.
   */
  lemma VisibleExact(expenses: seq<Expense>, search: string, category: string, x: Expense)
    ensures multiset(Visible(expenses, search, category))[x]
         == if Shown(x, search, category) then multiset(expenses)[x] else 0
  {
    var searched := Searched(expenses, search);
    if search != "" {
      FilterMultiset(expenses, Matches(ToLower(search)), x);
    }
    if category != "" {
      FilterMultiset(searched, HasCategory(category), x);
    }
  }

  /** With neither a search text nor a category, the list shows every expense. */
  lemma VisibleUnfiltered(expenses: seq<Expense>)
    ensures multiset(Visible(expenses, "", "")) == multiset(expenses)
  {
  }

  /**
   * For a non-empty search text, an expense passes the search exactly when
   * the lower-cased text occurs in its lower-cased description or shop.
   */
  lemma SearchMeans(e: Expense, search: string)
    requires search != ""
    ensures Matches(ToLower(search))(e)
        <==> Occurs(ToLower(search), ToLower(e.description)) || Occurs(ToLower(search), ToLower(e.shop))
  {
    var term := ToLower(search);
    IncludesOccurs(ToLower(e.description), term);
    IncludesOccurs(ToLower(e.shop), term);
    if Occurs(term, ToLower(e.description)) {
      var i :| OccursAt(term, ToLower(e.description), i);
    }
    if Occurs(term, ToLower(e.shop)) {
      var i :| OccursAt(term, ToLower(e.shop), i);
    }
  }

  /** Typing the search in capitals finds the same expenses in the same order. */
  lemma SearchIgnoresCase(expenses: seq<Expense>, search: string, category: string)
    ensures Visible(expenses, ToUpper(search), category) == Visible(expenses, search, category)
  {
    assert ToLower(ToUpper(search)) == ToLower(search) by {
      forall i | 0 <= i < |search|
        ensures ToLower(ToUpper(search))[i] == ToLower(search)[i]
      {
        CaseOfCase(search[i]);
      }
    }
  }

  /** `new Date(dateB.split('-').reverse().join('-')) - new Date(dateA...)` as the key of an ascending sort. */
  function NewestDay(p: (string, seq<Expense>)): real {
    -KeyDay(p.0)
  }

  /** The date groups of the shown expenses, newest date first. */
  function DateGroups(shown: seq<Expense>): (r: seq<(string, seq<Expense>)>)
    ensures SortedBy(r, NewestDay)
    ensures multiset(r) == multiset(GroupByDate(shown))
  {
    SortBy(GroupByDate(shown), NewestDay)
  }

  /** Every expense of a date group carries the group's date. */
  lemma DateGroupMembers(shown: seq<Expense>, i: int, x: Expense)
    requires 0 <= i < |DateGroups(shown)| && x in DateGroups(shown)[i].1
    ensures DateKey(x) == DateGroups(shown)[i].0 && x in shown
  {
    var g := GroupByDate(shown);
    var r := DateGroups(shown);
    assert r[i] in multiset(g);
    var k := MemberIndex(r[i], g);
    var sel := g[k].1;
    assert sel == Filter(shown, KeyIs(DateKey, g[k].0));
    var j :| 0 <= j < |sel| && sel[j] == x;
    assert KeyIs(DateKey, g[k].0)(sel[j]);
    FilterMembers(shown, KeyIs(DateKey, g[k].0), x);
  }

  /** No two date groups share a date. */
  lemma DateGroupsDistinct(shown: seq<Expense>)
    ensures DistinctBy(DateGroups(shown), KeyOf)
  {
    var g := GroupByDate(shown);
    GroupByDatePartition(shown);
    assert DistinctBy(g, KeyOf) by {
      forall i, j | 0 <= i < j < |g|
        ensures KeyOf(g[i]) != KeyOf(g[j])
      {
        assert Keys(g)[i] != Keys(g)[j];
      }
    }
    SortByKeepsDistinct(g, NewestDay, KeyOf);
  }

  /**
   * With four-digit years, the groups run from the newest day to the
   * oldest: everything in an earlier group was spent on a later day than
   * everything in a later group.
   */
  lemma DateGroupsNewestFirst(shown: seq<Expense>)
    requires forall e :: e in shown ==> 1000 <= DateOf(e.date).year <= 9999
    ensures var r := DateGroups(shown);
            forall i, j, x, y :: 0 <= i < j < |r| && x in r[i].1 && y in r[j].1 ==> DayIndex(x.date) > DayIndex(y.date)
  {
    var r := DateGroups(shown);
    DateGroupsDistinct(shown);
    forall i, j, x, y | 0 <= i < j < |r| && x in r[i].1 && y in r[j].1
      ensures DayIndex(x.date) > DayIndex(y.date)
    {
      DateGroupMembers(shown, i, x);
      DateGroupMembers(shown, j, y);
      assert NewestDay(r[i]) <= NewestDay(r[j]);
      KeyDayOfDate(x.date);
      KeyDayOfDate(y.date);
      assert KeyOf(r[i]) != KeyOf(r[j]);
      DateGroupIsDay(x, y);
    }
  }
}

=== FILE: fields.dfy ===
/**
 * Text typed into a form field, and the three ways the forms read a
 * number out of it.
 *
 * A field keeps its raw text, whose emptiness is what `!value` tests, and
 * the number the text denotes, or `None` where `isNaN(value)` holds. The
 * forms read that number with `parseFloat`, taken to agree with `isNaN`'s
 * reading, and with `parseInt`, taken to be the same number truncated
 * toward zero.
 */
module Fields {
  import opened Wrappers
  import opened Records

  datatype Field = Field(raw: string, number: Option<real>)

  /** The empty text: `!value`. */
  predicate Blank(f: Field) {
    f.raw == ""
  }

  /** Truncation toward zero, the integer part `parseInt` keeps. */
  function Trunc(x: real): (n: int)
    ensures x >= 0.0 ==> 0.0 <= n as real <= x < n as real + 1.0
    ensures x < 0.0 ==> n as real - 1.0 < x <= n as real <= 0.0
  {
    if x >= 0.0 then x.Floor else -((-x).Floor)
  }

  /** `parseInt(value)`: the truncated number, or `None` for `NaN`. */
  function ParseInt(f: Field): (r: Option<int>)
    ensures r.Some? <==> f.number.Some?
    ensures r.Some? ==> var x := f.number.value;
                        && (x >= 0.0 ==> 0.0 <= r.value as real <= x < r.value as real + 1.0)
                        && (x < 0.0 ==> r.value as real - 1.0 < x <= r.value as real <= 0.0)
  {
    match f.number
    case None => None
    case Some(x) => Some(Trunc(x))
  }

  /** `value ? parseInt(value) : null`: how many days a purchase lasts. */
  function ParseDuration(f: Field): (d: Duration)
    ensures d.NoDuration? <==> Blank(f)
    ensures d.NotANumber? <==> !Blank(f) && f.number.None?
    ensures !Blank(f) && f.number.Some? ==> d == Days(Trunc(f.number.value))
  {
    if Blank(f) then NoDuration
    else match ParseInt(f)
      case None => NotANumber
      case Some(n) => Days(n)
  }

  /** A whole number of days is read back exactly. */
  lemma ParseDurationDays(f: Field, n: int)
    requires !Blank(f) && f.number == Some(n as real)
    ensures ParseDuration(f) == Days(n)
  {
  }
}

=== FILE: grouping.dfy ===
/**
 * `reduce` into a plain object keyed by a string: the object's entries,
 * in `Object.entries` order, are the keys in order of first appearance.
 * Grouping collects the elements of each key; totalling sums an amount
 * per key.
 */
module Grouping {
  import opened Lists

  /** `s.map(f)`. */
  function MapSeq<T, U>(s: seq<T>, f: T -> U): (r: seq<U>)
    ensures |r| == |s|
    ensures forall i :: 0 <= i < |s| ==> r[i] == f(s[i])
  {
    seq(|s|, i requires 0 <= i < |s| => f(s[i]))
  }

  /** `Object.keys` of a list of entries. */
  function Keys<V>(g: seq<(string, V)>): (r: seq<string>)
    ensures |r| == |g|
    ensures forall i :: 0 <= i < |g| ==> r[i] == g[i].0
  {
    seq(|g|, i requires 0 <= i < |g| => g[i].0)
  }

  function KeyIs<T>(key: T -> string, k: string): T -> bool {
    x => key(x) == k
  }

  /** The elements of `s` whose key is `k`, in their original order. */
  function Select<T>(s: seq<T>, key: T -> string, k: string): seq<T> {
    Filter(s, KeyIs(key, k))
  }

  lemma SelectSnoc<T>(s: seq<T>, x: T, key: T -> string, k: string)
    ensures Select(s + [x], key, k) == Select(s, key, k) + (if key(x) == k then [x] else [])
  {
    FilterAppend(s, [x], KeyIs(key, k));
    assert Filter([x], KeyIs(key, k)) == (if key(x) == k then [x] else []) by {
      assert [x][1..] == [];
    }
  }

  /** Position of the entry with key `k`, or `|g|` when there is none (`!groups[k]`). */
  function FindKey<V>(g: seq<(string, V)>, k: string): (i: nat)
    ensures i <= |g|
    ensures i < |g| ==> g[i].0 == k
    ensures forall j :: 0 <= j < i ==> g[j].0 != k
  {
    if |g| == 0 then 0
    else if g[0].0 == k then 0
    else 1 + FindKey(g[1..], k)
  }

  lemma FindKeyPresent<V>(g: seq<(string, V)>, k: string)
    ensures FindKey(g, k) < |g| <==> k in Keys(g)
  {
    if k in Keys(g) {
      var j :| 0 <= j < |g| && Keys(g)[j] == k;
      assert g[j].0 == k;
    }
  }

  /** A prefix's distinct keys, extended by one element's key. */
  lemma DistinctSnoc(s: seq<string>, k: string)
    ensures Distinct(s + [k]) == if k in Distinct(s) then Distinct(s) else Distinct(s) + [k]
  {
    assert (s + [k])[..|s + [k]| - 1] == s;
  }

  lemma MapSeqSnoc<T, U>(s: seq<T>, x: T, f: T -> U)
    ensures MapSeq(s + [x], f) == MapSeq(s, f) + [f(x)]
  {
  }

  /** `g` is the grouping of `s`: the keys of `s` in order of first appearance, each with its elements. */
  ghost predicate GroupsOf<T>(g: seq<(string, seq<T>)>, s: seq<T>, key: T -> string) {
    && Keys(g) == Distinct(MapSeq(s, key))
    && forall i :: 0 <= i < |g| ==> g[i].1 == Select(s, key, g[i].0)
  }

  /** `g` holds the per-key totals of `s`, keys in order of first appearance. */
  predicate TotalsOf<T>(g: seq<(string, real)>, s: seq<T>, key: T -> string, amount: T -> real) {
    && Keys(g) == Distinct(MapSeq(s, key))
    && forall i :: 0 <= i < |g| ==> g[i].1 == Sum(Select(s, key, g[i].0), amount)
  }

  /** One step of either reduction: a new key opens an entry at the end, a known key is updated in place. */
  function AddEntry<V>(g: seq<(string, V)>, k: string, first: V, update: V -> V): (r: seq<(string, V)>)
    ensures FindKey(g, k) < |g| ==> r == g[FindKey(g, k) := (k, update(g[FindKey(g, k)].1))]
    ensures FindKey(g, k) == |g| ==> r == g + [(k, first)]
  {
    var i := FindKey(g, k);
    if i < |g| then g[i := (k, update(g[i].1))] else g + [(k, first)]
  }

  lemma KeysUpdate<V>(g: seq<(string, V)>, i: nat, v: V)
    requires i < |g|
    ensures Keys(g[i := (g[i].0, v)]) == Keys(g)
  {
  }

  lemma KeysSnoc<V>(g: seq<(string, V)>, k: string, v: V)
    ensures Keys(g + [(k, v)]) == Keys(g) + [k]
  {
  }

  /** Adding one element keeps the keys in order of first appearance. */
  lemma AddEntryKeys<T, V>(g: seq<(string, V)>, s: seq<T>, x: T, key: T -> string, first: V, update: V -> V)
    requires Keys(g) == Distinct(MapSeq(s, key))
    ensures Keys(AddEntry(g, key(x), first, update)) == Distinct(MapSeq(s + [x], key))
  {
    var k := key(x);
    MapSeqSnoc(s, x, key);
    DistinctSnoc(MapSeq(s, key), k);
    FindKeyPresent(g, k);
    var i := FindKey(g, k);
    if i < |g| {
      KeysUpdate(g, i, update(g[i].1));
    } else {
      KeysSnoc(g, k, first);
    }
  }

  /** A key that has no entry yet selects nothing. */
  lemma AbsentKeySelectsNothing<T>(s: seq<T>, key: T -> string, k: string)
    requires k !in Distinct(MapSeq(s, key))
    ensures Select(s, key, k) == []
  {
    forall i | 0 <= i < |s|
      ensures !KeyIs(key, k)(s[i])
    {
      assert MapSeq(s, key)[i] in Distinct(MapSeq(s, key));
    }
    FilterNone(s, KeyIs(key, k));
  }

  function Append<T>(x: T): seq<T> -> seq<T> {
    items => items + [x]
  }

  function Add(a: real): real -> real {
    v => v + a
  }

  /** The entry of another key than the added element's is left as it was. */
  lemma OtherEntry<V>(g: seq<(string, V)>, k: string, first: V, update: V -> V, i: nat)
    requires NoDuplicates(Keys(g))
    requires i < |g| && i != FindKey(g, k)
    ensures AddEntry(g, k, first, update)[i] == g[i]
    ensures g[i].0 != k
  {
  }

  lemma GroupEntry<T>(g: seq<(string, seq<T>)>, s: seq<T>, x: T, key: T -> string, i: nat)
    requires GroupsOf(g, s, key)
    requires i < |AddEntry(g, key(x), [x], Append(x))|
    ensures var r := AddEntry(g, key(x), [x], Append(x));
            r[i].1 == Select(s + [x], key, r[i].0)
  {
    var k := key(x);
    var j := FindKey(g, k);
    FindKeyPresent(g, k);
    if i == j && j < |g| {
      SelectSnoc(s, x, key, k);
    } else if i < |g| {
      OtherEntry(g, k, [x], Append(x), i);
      SelectSnoc(s, x, key, g[i].0);
    } else {
      AbsentKeySelectsNothing(s, key, k);
      SelectSnoc(s, x, key, k);
    }
  }

  lemma GroupStep<T>(g: seq<(string, seq<T>)>, s: seq<T>, x: T, key: T -> string)
    requires GroupsOf(g, s, key)
    ensures GroupsOf(AddEntry(g, key(x), [x], Append(x)), s + [x], key)
  {
    AddEntryKeys(g, s, x, key, [x], Append(x));
    var r := AddEntry(g, key(x), [x], Append(x));
    forall i | 0 <= i < |r|
      ensures r[i].1 == Select(s + [x], key, r[i].0)
    {
      GroupEntry(g, s, x, key, i);
    }
  }

  /** The sum of the entry that the added element's key selects grows by the element's amount. */
  lemma SelectSnocSum<T>(s: seq<T>, x: T, key: T -> string, amount: T -> real, k: string)
    ensures Sum(Select(s + [x], key, k), amount)
         == Sum(Select(s, key, k), amount) + (if key(x) == k then amount(x) else 0.0)
  {
    SelectSnoc(s, x, key, k);
    if key(x) == k {
      SumAppend(Select(s, key, k), [x], amount);
    } else {
      assert Select(s, key, k) + [] == Select(s, key, k);
    }
  }

  lemma TotalEntry<T>(g: seq<(string, real)>, s: seq<T>, x: T, key: T -> string, amount: T -> real, i: nat)
    requires TotalsOf(g, s, key, amount)
    requires i < |AddEntry(g, key(x), amount(x), Add(amount(x)))|
    ensures var r := AddEntry(g, key(x), amount(x), Add(amount(x)));
            r[i].1 == Sum(Select(s + [x], key, r[i].0), amount)
  {
    var k := key(x);
    var j := FindKey(g, k);
    FindKeyPresent(g, k);
    if i == j && j < |g| {
      SelectSnocSum(s, x, key, amount, k);
    } else if i < |g| {
      OtherEntry(g, k, amount(x), Add(amount(x)), i);
      SelectSnocSum(s, x, key, amount, g[i].0);
    } else {
      AbsentKeySelectsNothing(s, key, k);
      SelectSnocSum(s, x, key, amount, k);
    }
  }

  lemma TotalsStep<T>(g: seq<(string, real)>, s: seq<T>, x: T, key: T -> string, amount: T -> real)
    requires TotalsOf(g, s, key, amount)
    ensures TotalsOf(AddEntry(g, key(x), amount(x), Add(amount(x))), s + [x], key, amount)
  {
    AddEntryKeys(g, s, x, key, amount(x), Add(amount(x)));
    var r := AddEntry(g, key(x), amount(x), Add(amount(x)));
    forall i | 0 <= i < |r|
      ensures r[i].1 == Sum(Select(s + [x], key, r[i].0), amount)
    {
      TotalEntry(g, s, x, key, amount, i);
    }
  }

  /**
   * `s.reduce((groups, x) => { (groups[key(x)] ||= []).push(x); return groups }, {})`:
   * one entry per distinct key in order of first appearance, holding the
   * elements with that key in their original order.
   */
  function GroupBy<T>(s: seq<T>, key: T -> string): (r: seq<(string, seq<T>)>)
    ensures GroupsOf(r, s, key)
  {
    if |s| == 0 then []
    else
      var prefix, x := s[..|s| - 1], s[|s| - 1];
      assert s == prefix + [x];
      var g := GroupBy(prefix, key);
      GroupStep(g, prefix, x, key);
      AddEntry(g, key(x), [x], Append(x))
  }

  /** All the groups' elements, group after group. */
  function Flatten<T>(g: seq<(string, seq<T>)>): seq<T> {
    if |g| == 0 then [] else g[0].1 + Flatten(g[1..])
  }

  lemma {:induction false} FlattenSnoc<T>(g: seq<(string, seq<T>)>, k: string, x: T)
    ensures Flatten(g + [(k, [x])]) == Flatten(g) + [x]
  {
    if |g| == 0 {
      assert Flatten([(k, [x])]) == [x] + Flatten<T>([]);
    } else {
      assert (g + [(k, [x])])[1..] == g[1..] + [(k, [x])];
      FlattenSnoc(g[1..], k, x);
    }
  }

  lemma {:induction false} FlattenUpdate<T>(g: seq<(string, seq<T>)>, i: nat, k: string, x: T)
    requires i < |g|
    ensures multiset(Flatten(g[i := (k, g[i].1 + [x])])) == multiset(Flatten(g)) + multiset{x}
  {
    var h := g[i := (k, g[i].1 + [x])];
    if i == 0 {
      assert h[1..] == g[1..];
    } else {
      assert h[1..] == g[1..][i - 1 := (k, g[i].1 + [x])];
      FlattenUpdate(g[1..], i - 1, k, x);
    }
  }

  /** Grouping neither loses nor duplicates an element, and no key gets two groups. */
  lemma {:induction false} GroupByFlatten<T>(s: seq<T>, key: T -> string)
    ensures multiset(Flatten(GroupBy(s, key))) == multiset(s)
    ensures NoDuplicates(Keys(GroupBy(s, key)))
    decreases |s|
  {
    if |s| > 0 {
      var prefix, x := s[..|s| - 1], s[|s| - 1];
      assert s == prefix + [x];
      GroupByFlatten(prefix, key);
      var g := GroupBy(prefix, key);
      assert GroupBy(s, key) == AddEntry(g, key(x), [x], Append(x));
      var i := FindKey(g, key(x));
      if i < |g| {
        FlattenUpdate(g, i, key(x), x);
      } else {
        FlattenSnoc(g, key(x), x);
      }
    }
  }

  function Value(p: (string, real)): real {
    p.1
  }

  /**
   * `s.reduce((totals, x) => { totals[key(x)] = (totals[key(x)] || 0) + amount(x); return totals }, {})`:
   * one entry per distinct key in order of first appearance, holding the
   * sum of the amounts of the elements with that key.
   */
  function GroupTotals<T>(s: seq<T>, key: T -> string, amount: T -> real): (r: seq<(string, real)>)
    ensures TotalsOf(r, s, key, amount)
  {
    if |s| == 0 then []
    else
      var prefix, x := s[..|s| - 1], s[|s| - 1];
      assert s == prefix + [x];
      var g := GroupTotals(prefix, key, amount);
      TotalsStep(g, prefix, x, key, amount);
      AddEntry(g, key(x), amount(x), Add(amount(x)))
  }

  /** Adding `a` to one entry's value adds `a` to the total of the values. */
  lemma {:induction false} SumUpdate(g: seq<(string, real)>, i: nat, k: string, a: real)
    requires i < |g|
    ensures Sum(g[i := (k, g[i].1 + a)], Value) == Sum(g, Value) + a
  {
    if i > 0 {
      assert g[i := (k, g[i].1 + a)][1..] == g[1..][i - 1 := (k, g[i].1 + a)];
      SumUpdate(g[1..], i - 1, k, a);
    }
  }

  /** One reduction step adds the element's amount to the total of the values. */
  lemma AddEntrySum(g: seq<(string, real)>, k: string, a: real)
    ensures Sum(AddEntry(g, k, a, Add(a)), Value) == Sum(g, Value) + a
  {
    var i := FindKey(g, k);
    if i < |g| {
      SumUpdate(g, i, k, a);
    } else {
      SumAppend(g, [(k, a)], Value);
    }
  }

  /** The per-key totals add up to the total of all amounts. */
  lemma {:induction false} GroupTotalsSum<T>(s: seq<T>, key: T -> string, amount: T -> real)
    ensures Sum(GroupTotals(s, key, amount), Value) == Sum(s, amount)
    decreases |s|
  {
    if |s| > 0 {
      var prefix, x := s[..|s| - 1], s[|s| - 1];
      assert s == prefix + [x];
      GroupTotalsSum(prefix, key, amount);
      SumAppend(prefix, [x], amount);
      AddEntrySum(GroupTotals(prefix, key, amount), key(x), amount(x));
    }
  }

  function KeyOf<V>(p: (string, V)): string {
    p.0
  }

  /** The totals name no key twice. */
  lemma TotalsDistinct<T>(s: seq<T>, key: T -> string, amount: T -> real)
    ensures DistinctBy(GroupTotals(s, key, amount), KeyOf)
  {
    var t := GroupTotals(s, key, amount);
    forall i, j | 0 <= i < j < |t|
      ensures KeyOf(t[i]) != KeyOf(t[j])
    {
      assert Keys(t)[i] != Keys(t)[j];
    }
  }

  /** Each entry of a reordering of the totals is one of the totals. */
  lemma SortedTotalsEntries<T>(s: seq<T>, key: T -> string, amount: T -> real, order: ((string, real)) -> real)
    ensures var g := SortBy(GroupTotals(s, key, amount), order);
            forall i :: 0 <= i < |g| ==> g[i].0 in MapSeq(s, key) && g[i].1 == Sum(Select(s, key, g[i].0), amount)
  {
    var t := GroupTotals(s, key, amount);
    var g := SortBy(t, order);
    forall i | 0 <= i < |g|
      ensures g[i].0 in MapSeq(s, key) && g[i].1 == Sum(Select(s, key, g[i].0), amount)
    {
      assert g[i] in multiset(t);
      var k := MemberIndex(g[i], t);
      assert Keys(t)[k] in Distinct(MapSeq(s, key));
    }
  }

  /** Every element's key has an entry in a reordering of the totals. */
  lemma SortedTotalsCover<T>(s: seq<T>, key: T -> string, amount: T -> real, order: ((string, real)) -> real)
    ensures var g := SortBy(GroupTotals(s, key, amount), order);
            forall i :: 0 <= i < |s| ==> key(s[i]) in Keys(g)
  {
    var t := GroupTotals(s, key, amount);
    var g := SortBy(t, order);
    var ks := MapSeq(s, key);
    forall i | 0 <= i < |s|
      ensures key(s[i]) in Keys(g)
    {
      assert ks[i] in Distinct(ks);
      var k :| 0 <= k < |t| && Keys(t)[k] == ks[i];
      assert t[k] in multiset(g);
      var j := MemberIndex(t[k], g);
      assert Keys(g)[j] == key(s[i]);
    }
  }

  /**
   * Totals reordered by any key are still the totals: one entry per key
   * the elements carry, no key twice, each holding the sum of its
   * elements' amounts.
   */
  lemma SortedTotals<T>(s: seq<T>, key: T -> string, amount: T -> real, order: ((string, real)) -> real)
    ensures var g := SortBy(GroupTotals(s, key, amount), order);
            && DistinctBy(g, KeyOf)
            && (forall i :: 0 <= i < |g| ==> g[i].0 in MapSeq(s, key))
            && (forall i :: 0 <= i < |g| ==> g[i].1 == Sum(Select(s, key, g[i].0), amount))
            && (forall i :: 0 <= i < |s| ==> key(s[i]) in Keys(g))
  {
    TotalsDistinct(s, key, amount);
    SortByKeepsDistinct(GroupTotals(s, key, amount), order, KeyOf);
    SortedTotalsEntries(s, key, amount, order);
    SortedTotalsCover(s, key, amount, order);
  }
}

=== FILE: lists.dfy ===
/**
 * The list operations the budget code builds on: `Array.prototype.filter`,
 * a `reduce` that sums, `[...new Set(xs)]`, and the stable
 * `Array.prototype.sort` with a numeric comparator.
 */
module Lists {

  // ---------------------------------------------------------------------
  // filter

  /** The elements of `s` that satisfy `p`, in their original order. */
  function Filter<T>(s: seq<T>, p: T -> bool): (r: seq<T>)
    ensures |r| <= |s|
    ensures forall i :: 0 <= i < |r| ==> p(r[i])
  {
    if |s| == 0 then []
    else if p(s[0]) then [s[0]] + Filter(s[1..], p)
    else Filter(s[1..], p)
  }

  /** Filtering distributes over concatenation, so relative order is kept. */
  lemma {:induction false} FilterAppend<T>(a: seq<T>, b: seq<T>, p: T -> bool)
    ensures Filter(a + b, p) == Filter(a, p) + Filter(b, p)
  {
    if |a| > 0 {
      assert (a + b)[0] == a[0];
      assert (a + b)[1..] == a[1..] + b;
      FilterAppend(a[1..], b, p);
      if p(a[0]) {
        assert Filter(a + b, p) == [a[0]] + Filter(a[1..] + b, p);
        assert Filter(a, p) == [a[0]] + Filter(a[1..], p);
        assert [a[0]] + (Filter(a[1..], p) + Filter(b, p)) == ([a[0]] + Filter(a[1..], p)) + Filter(b, p);
      } else {
        assert Filter(a + b, p) == Filter(a[1..] + b, p);
      }
    } else {
      assert a + b == b;
    }
  }

  /** Every element that passes keeps its multiplicity; every other element is gone. */
  lemma {:induction false} FilterMultiset<T>(s: seq<T>, p: T -> bool, x: T)
    ensures multiset(Filter(s, p))[x] == if p(x) then multiset(s)[x] else 0
  {
    if |s| > 0 {
      assert s == [s[0]] + s[1..];
      FilterMultiset(s[1..], p, x);
    }
  }

  /** An element is in the filtered list exactly when it is in the input and passes. */
  lemma FilterMembers<T>(s: seq<T>, p: T -> bool, x: T)
    ensures x in Filter(s, p) <==> x in s && p(x)
  {
    FilterMultiset(s, p, x);
  }

  /** A filter that every element passes changes nothing. */
  lemma {:induction false} FilterKeepsAll<T>(s: seq<T>, p: T -> bool)
    requires forall i :: 0 <= i < |s| ==> p(s[i])
    ensures Filter(s, p) == s
  {
    if |s| > 0 {
      assert s == [s[0]] + s[1..];
      FilterKeepsAll(s[1..], p);
    }
  }

  /** A filter that no element passes leaves nothing. */
  lemma {:induction false} FilterNone<T>(s: seq<T>, p: T -> bool)
    requires forall i :: 0 <= i < |s| ==> !p(s[i])
    ensures Filter(s, p) == []
  {
    if |s| > 0 {
      FilterNone(s[1..], p);
    }
  }

  /** Filtering again by a weaker condition changes nothing. */
  lemma FilterTwice<T>(s: seq<T>, p: T -> bool, q: T -> bool)
    requires forall x :: p(x) ==> q(x)
    ensures Filter(Filter(s, p), q) == Filter(s, p)
  {
    FilterKeepsAll(Filter(s, p), q);
  }

  /** The filtered list is a sub-multiset of the input. */
  lemma FilterSubMultiset<T>(s: seq<T>, p: T -> bool)
    ensures multiset(Filter(s, p)) <= multiset(s)
  {
    forall x {
      FilterMultiset(s, p, x);
    }
  }

  // ---------------------------------------------------------------------
  // sums

  /** The sum of `f` over `s`; with real amounts the order of the additions does not matter. */
  function Sum<T>(s: seq<T>, f: T -> real): real {
    if |s| == 0 then 0.0 else f(s[0]) + Sum(s[1..], f)
  }

  lemma {:induction false} SumAppend<T>(a: seq<T>, b: seq<T>, f: T -> real)
    ensures Sum(a + b, f) == Sum(a, f) + Sum(b, f)
  {
    if |a| > 0 {
      assert (a + b)[0] == a[0];
      assert (a + b)[1..] == a[1..] + b;
      SumAppend(a[1..], b, f);
    } else {
      assert a + b == b;
    }
  }

  lemma {:induction false} SumNonNegative<T>(s: seq<T>, f: T -> real)
    requires forall x :: x in s ==> f(x) >= 0.0
    ensures Sum(s, f) >= 0.0
  {
    if |s| > 0 {
      SumNonNegative(s[1..], f);
    }
  }

  // ---------------------------------------------------------------------
  // [...new Set(xs)]

  predicate NoDuplicates<T(==)>(s: seq<T>) {
    forall i, j :: 0 <= i < j < |s| ==> s[i] != s[j]
  }

  /** Position of the first occurrence of `x` in `s`. */
  function FirstIndex<T(==)>(s: seq<T>, x: T): (i: nat)
    requires x in s
    ensures i < |s| && s[i] == x && x !in s[..i]
  {
    if s[0] == x then 0 else 1 + FirstIndex(s[1..], x)
  }

  /** The first occurrence is the one with no occurrence before it. */
  lemma {:induction false} FirstIndexUnique<T>(s: seq<T>, y: T, i: nat)
    requires i < |s| && s[i] == y && y !in s[..i]
    ensures FirstIndex(s, y) == i
  {
    if i > 0 {
      assert s[..i][0] == s[0];
      forall k | 1 <= k < i
        ensures s[k] != y
      {
        assert s[..i][k] == s[k];
      }
      assert y !in s[1..][..i - 1];
      FirstIndexUnique(s[1..], y, i - 1);
    }
  }

  lemma FirstIndexExtend<T>(s: seq<T>, x: T, y: T)
    requires y in s
    ensures FirstIndex(s + [x], y) == FirstIndex(s, y)
  {
    var i := FirstIndex(s, y);
    assert (s + [x])[..i] == s[..i];
    FirstIndexUnique(s + [x], y, i);
  }

  /** The distinct elements of `s`, in order of first appearance. */
  function Distinct<T(==)>(s: seq<T>): (r: seq<T>)
    ensures NoDuplicates(r)
    ensures forall i :: 0 <= i < |r| ==> r[i] in s
    ensures forall i :: 0 <= i < |s| ==> s[i] in r
    ensures forall i, j :: 0 <= i < j < |r| ==> FirstIndex(s, r[i]) < FirstIndex(s, r[j])
  {
    if |s| == 0 then []
    else
      var prefix := s[..|s| - 1];
      var last := s[|s| - 1];
      var d := Distinct(prefix);
      assert s == prefix + [last];
      forall y | y in prefix {
        FirstIndexExtend(prefix, last, y);
      }
      if last in d then d
      else
        assert FirstIndex(s, last) == |s| - 1;
        d + [last]
  }

  // ---------------------------------------------------------------------
  // stable sort by a numeric key

  /** `s` is in ascending order of `key`. */
  predicate SortedBy<T>(s: seq<T>, key: T -> real) {
    forall i, j :: 0 <= i < j < |s| ==> key(s[i]) <= key(s[j])
  }

  /** Putting an element no larger than the head in front of a sorted list keeps it sorted. */
  lemma ConsSorted<T>(a: T, t: seq<T>, key: T -> real)
    requires SortedBy(t, key)
    requires |t| > 0 ==> key(a) <= key(t[0])
    ensures SortedBy([a] + t, key)
  {
    var r := [a] + t;
    forall i, j | 0 <= i < j < |r|
      ensures key(r[i]) <= key(r[j])
    {
      if i == 0 {
        assert r[j] == t[j - 1];
        if j > 1 {
          assert key(t[0]) <= key(t[j - 1]);
        }
      } else {
        assert r[i] == t[i - 1] && r[j] == t[j - 1];
      }
    }
  }

  /** Puts `x` in front of the first element whose key is not smaller. */
  function Insert<T>(x: T, s: seq<T>, key: T -> real): (r: seq<T>)
    ensures |r| == |s| + 1
    ensures r[0] == x || (|s| > 0 && r[0] == s[0])
    ensures multiset(r) == multiset(s) + multiset{x}
  {
    if |s| == 0 || key(x) <= key(s[0]) then [x] + s
    else
      assert s == [s[0]] + s[1..];
      [s[0]] + Insert(x, s[1..], key)
  }

  lemma {:induction false} InsertSorted<T>(x: T, s: seq<T>, key: T -> real)
    requires SortedBy(s, key)
    ensures SortedBy(Insert(x, s, key), key)
  {
    if |s| == 0 || key(x) <= key(s[0]) {
      ConsSorted(x, s, key);
    } else {
      var t := s[1..];
      assert SortedBy(t, key) by {
        forall i, j | 0 <= i < j < |t|
          ensures key(t[i]) <= key(t[j])
        {
          assert t[i] == s[i + 1] && t[j] == s[j + 1];
        }
      }
      InsertSorted(x, t, key);
      var rest := Insert(x, t, key);
      if |t| > 0 && rest[0] == t[0] {
        assert key(s[0]) <= key(s[1]);
      }
      ConsSorted(s[0], rest, key);
    }
  }

  /**
   * Insertion sort: ascending by `key`, elements with equal keys keeping
   * their input order, as `Array.prototype.sort` does with the comparator
   * `(a, b) => key(a) - key(b)`.
   */
  function SortBy<T>(s: seq<T>, key: T -> real): (r: seq<T>)
    ensures SortedBy(r, key)
    ensures multiset(r) == multiset(s)
    ensures |r| == |s|
  {
    if |s| == 0 then []
    else
      var rest := SortBy(s[1..], key);
      InsertSorted(s[0], rest, key);
      assert s == [s[0]] + s[1..];
      Insert(s[0], rest, key)
  }

  /** The test "has key `v`", the filter that picks out one class of equal keys. */
  function HasKey<T>(key: T -> real, v: real): T -> bool {
    x => key(x) == v
  }

  /**
   * Inserting `x` adds it in front of every element with the same key and
   * changes nothing about the elements with any other key.
   */
  lemma {:induction false} InsertFilter<T>(x: T, s: seq<T>, key: T -> real, v: real)
    ensures Filter(Insert(x, s, key), HasKey(key, v))
         == (if key(x) == v then [x] else []) + Filter(s, HasKey(key, v))
  {
    var p := HasKey(key, v);
    var r := Insert(x, s, key);
    if |s| == 0 || key(x) <= key(s[0]) {
      assert r[0] == x && r[1..] == s;
    } else {
      assert r[0] == s[0] && r[1..] == Insert(x, s[1..], key);
      InsertFilter(x, s[1..], key, v);
    }
  }

  /**
   * The sort is stable: for every key, the elements with that key come out
   * in the order they went in.
   */
  lemma {:induction false} SortByStable<T>(s: seq<T>, key: T -> real, v: real)
    ensures Filter(SortBy(s, key), HasKey(key, v)) == Filter(s, HasKey(key, v))
  {
    if |s| > 0 {
      SortByStable(s[1..], key, v);
      InsertFilter(s[0], SortBy(s[1..], key), key, v);
    }
  }

  lemma {:induction false} SumInsert<T>(x: T, s: seq<T>, key: T -> real, f: T -> real)
    ensures Sum(Insert(x, s, key), f) == f(x) + Sum(s, f)
  {
    if |s| > 0 && key(s[0]) < key(x) {
      var r := Insert(x, s, key);
      assert r[1..] == Insert(x, s[1..], key);
      SumInsert(x, s[1..], key, f);
    }
  }

  /** Sorting does not change a sum. */
  lemma {:induction false} SumSortBy<T>(s: seq<T>, key: T -> real, f: T -> real)
    ensures Sum(SortBy(s, key), f) == Sum(s, f)
  {
    if |s| > 0 {
      SumSortBy(s[1..], key, f);
      SumInsert(s[0], SortBy(s[1..], key), key, f);
    }
  }

  /** No two elements of `s` share a value of `f`. */
  predicate DistinctBy<T, K(==)>(s: seq<T>, f: T -> K) {
    forall i, j :: 0 <= i < j < |s| ==> f(s[i]) != f(s[j])
  }

  /** A list whose head's value of `f` is not among the tail's, and whose tail is distinct, is distinct. */
  lemma ConsDistinct<T, K>(a: T, t: seq<T>, f: T -> K)
    requires DistinctBy(t, f)
    requires forall i :: 0 <= i < |t| ==> f(t[i]) != f(a)
    ensures DistinctBy([a] + t, f)
  {
    var r := [a] + t;
    forall i, j | 0 <= i < j < |r|
      ensures f(r[i]) != f(r[j])
    {
      assert r[j] == t[j - 1];
      if i > 0 {
        assert r[i] == t[i - 1];
      }
    }
  }

  /** An element of a list is one of the list's elements: an index for a multiset member. */
  lemma MemberIndex<T>(y: T, s: seq<T>) returns (k: nat)
    requires y in multiset(s)
    ensures k < |s| && s[k] == y
  {
    assert y in s;
    k :| 0 <= k < |s| && s[k] == y;
  }

  lemma {:induction false} InsertKeepsDistinct<T, K>(x: T, t: seq<T>, key: T -> real, f: T -> K)
    requires DistinctBy(t, f)
    requires forall i :: 0 <= i < |t| ==> f(t[i]) != f(x)
    ensures DistinctBy(Insert(x, t, key), f)
  {
    if |t| == 0 || key(x) <= key(t[0]) {
      ConsDistinct(x, t, f);
    } else {
      var u := t[1..];
      assert DistinctBy(u, f) by {
        forall i, j | 0 <= i < j < |u|
          ensures f(u[i]) != f(u[j])
        {
          assert u[i] == t[i + 1] && u[j] == t[j + 1];
        }
      }
      InsertKeepsDistinct(x, u, key, f);
      var rest := Insert(x, u, key);
      forall i | 0 <= i < |rest|
        ensures f(rest[i]) != f(t[0])
      {
        assert rest[i] in multiset(u) + multiset{x};
        if rest[i] != x {
          var k := MemberIndex(rest[i], u);
          assert t[k + 1] == rest[i];
        }
      }
      ConsDistinct(t[0], rest, f);
    }
  }

  /** Elements distinct by `f` stay so after sorting: a sort is a permutation. */
  lemma {:induction false} SortByKeepsDistinct<T, K>(s: seq<T>, key: T -> real, f: T -> K)
    requires DistinctBy(s, f)
    ensures DistinctBy(SortBy(s, key), f)
  {
    if |s| > 0 {
      var u := s[1..];
      assert DistinctBy(u, f) by {
        forall i, j | 0 <= i < j < |u|
          ensures f(u[i]) != f(u[j])
        {
          assert u[i] == s[i + 1] && u[j] == s[j + 1];
        }
      }
      var rest := SortBy(u, key);
      SortByKeepsDistinct(u, key, f);
      forall i | 0 <= i < |rest|
        ensures f(rest[i]) != f(s[0])
      {
        assert rest[i] in multiset(u);
        var k := MemberIndex(rest[i], u);
        assert s[k + 1] == rest[i];
      }
      InsertKeepsDistinct(s[0], rest, key, f);
    }
  }
}

=== FILE: receipt_scanner.dfy ===
/**
 * The receipt scanner's own logic: normalising the categories the
 * analysis returns, editing and removing receipt items, and turning a
 * saved receipt into one expense per item. The analysis call itself and
 * the clock are outside the model: the receipt arrives as data, and "now"
 * and `new Date(text)` are parameters.
 */
module ReceiptScanner {
  import opened Wrappers
  import opened Calendar
  import opened Lists
  import opened Text
  import opened Records
  import opened Fields
  import opened BudgetContext

  /** `EXPENSE_CATEGORIES`, in the order the source lists them. */
  const Categories: seq<string> := [
    "Pieczywo", "Nabiał", "Mięso", "Owoce", "Warzywa",
    "Napoje", "Przekąski", "Gotowe dania", "Restauracja", "Inne"
  ]

  /** `s.charAt(0).toUpperCase() + s.slice(1).toLowerCase()`. */
  function Capitalize(s: string): (r: string)
    ensures |r| == |s|
  {
    if |s| == 0 then "" else [UpperChar(s[0])] + ToLower(s[1..])
  }

  /**
   * `fixCategory`: the capitalised category when it is one of the ten,
   * otherwise 'Inne', which is also what a missing category becomes.
   */
  function FixCategory(category: string): (r: string)
    ensures r in Categories
    ensures category == "" ==> r == "Inne"
    ensures r == "Inne" || r == Capitalize(category)
  {
    if category == "" then "Inne"
    else
      var capitalized := Capitalize(category);
      if capitalized in Categories then capitalized else "Inne"
  }

  /** The ten categories are already written capitalised. */
  lemma CategoriesCapitalized()
    ensures forall i :: 0 <= i < |Categories| ==> Capitalize(Categories[i]) == Categories[i]
  {
    forall i | 0 <= i < |Categories|
      ensures Capitalize(Categories[i]) == Categories[i]
    {
      CapitalizedAlready(Categories[i]);
    }
  }

  /** A text starting with a capital and going on in small letters and spaces is its own capitalisation. */
  lemma CapitalizedAlready(s: string)
    requires |s| > 0 && UpperChar(s[0]) == s[0]
    requires forall i :: 1 <= i < |s| ==> LowerChar(s[i]) == s[i]
    ensures Capitalize(s) == s
  {
    assert [UpperChar(s[0])] + ToLower(s[1..]) == s;
  }

  /** Every category of the list is left as it is, so fixing twice is fixing once. */
  lemma FixCategoryFixedPoints(category: string)
    ensures category in Categories ==> FixCategory(category) == category
    ensures FixCategory(FixCategory(category)) == FixCategory(category)
  {
    CategoriesCapitalized();
    var r := FixCategory(category);
    var i :| 0 <= i < |Categories| && Categories[i] == r;
    assert FixCategory(r) == r;
  }

  /**
   * A category other than 'Inne' comes out exactly when the text,
   * capitalised, spells it: the fix ignores how the text was cased.
   */
  lemma FixCategoryExact(category: string, k: string)
    requires k in Categories && k != "Inne"
    ensures FixCategory(category) == k <==> category != "" && Capitalize(category) == k
  {
  }

  /** Upper- or lower-casing the text first makes no difference to the fixed category. */
  lemma FixCategoryIgnoresCase(category: string)
    ensures FixCategory(ToLower(category)) == FixCategory(category)
    ensures FixCategory(ToUpper(category)) == FixCategory(category)
  {
    if category != "" {
      assert Capitalize(ToLower(category)) == Capitalize(category) by {
        CaseOfCase(category[0]);
        assert ToLower(category)[1..] == ToLower(category[1..]);
        assert ToLower(ToLower(category[1..])) == ToLower(category[1..]);
      }
      assert Capitalize(ToUpper(category)) == Capitalize(category) by {
        CaseOfCase(category[0]);
        assert ToUpper(category)[1..] == ToUpper(category[1..]);
        forall i | 0 <= i < |category| - 1
          ensures ToLower(ToUpper(category[1..]))[i] == ToLower(category[1..])[i]
        {
          CaseOfCase(category[1..][i]);
        }
      }
    }
  }

  /** One line of the receipt as the analysis and the edit fields give it. */
  datatype Item = Item(name: string, price: real, category: string)

  /** The analysed receipt; a missing item list, date or store is empty here. */
  datatype Receipt = Receipt(items: seq<Item>, date: string, store: string)

  predicate CategoriesFixed(items: seq<Item>) {
    forall i :: 0 <= i < |items| ==> items[i].category in Categories
  }

  function FixItem(item: Item): Item {
    item.(category := FixCategory(item.category))
  }

  /** The items of a fresh analysis, each with its category fixed and nothing else changed. */
  function NormalizeItems(items: seq<Item>): (r: seq<Item>)
    ensures |r| == |items|
    ensures CategoriesFixed(r)
    ensures forall i :: 0 <= i < |items| ==> r[i].name == items[i].name && r[i].price == items[i].price
  {
    seq(|items|, i requires 0 <= i < |items| => FixItem(items[i]))
  }

  /** Normalising a second time changes nothing. */
  lemma NormalizeItemsIdempotent(items: seq<Item>)
    ensures NormalizeItems(NormalizeItems(items)) == NormalizeItems(items)
  {
    var once := NormalizeItems(items);
    forall i | 0 <= i < |items|
      ensures NormalizeItems(once)[i] == once[i]
    {
      FixCategoryFixedPoints(items[i].category);
    }
  }

  /** The field an edit sets, with the value typed. */
  datatype Edit = NewName(name: string) | NewPrice(price: real) | NewCategory(category: string)

  /** `handleItemChange(index, field, value)`; the edit fields exist only for items shown, so `index` is one of theirs. */
  function ChangeItem(items: seq<Item>, index: int, edit: Edit): (r: seq<Item>)
    requires 0 <= index < |items|
    ensures |r| == |items|
    ensures forall j :: 0 <= j < |items| && j != index ==> r[j] == items[j]
  {
    var item := items[index];
    var changed := match edit
      case NewName(n) => item.(name := n)
      case NewPrice(p) => item.(price := p)
      case NewCategory(c) => item.(category := FixCategory(c));
    items[index := changed]
  }

  /**
   * An edit sets just the named field of the item at `index`, a category
   * going through the fix, and so keeps every item's category one of the ten.
   */
  lemma ChangeItemSetsField(items: seq<Item>, index: int, edit: Edit)
    requires 0 <= index < |items|
    ensures var it := ChangeItem(items, index, edit)[index];
            && it.name == (if edit.NewName? then edit.name else items[index].name)
            && it.price == (if edit.NewPrice? then edit.price else items[index].price)
            && it.category == (if edit.NewCategory? then FixCategory(edit.category) else items[index].category)
    ensures CategoriesFixed(items) ==> CategoriesFixed(ChangeItem(items, index, edit))
  {
  }

  /** `handleRemoveItem(index)`: `filter((_, i) => i !== index)`. */
  function RemoveItem(items: seq<Item>, index: int): (r: seq<Item>)
    ensures 0 <= index < |items| ==> |r| == |items| - 1
    ensures !(0 <= index < |items|) ==> r == items
  {
    if 0 <= index < |items| then items[..index] + items[index + 1..] else items
  }

  /**
   * Removing drops exactly the item at `index`: the items before it stay
   * where they were, the ones after it move up by one, in order.
   */
  lemma RemoveItemExact(items: seq<Item>, index: int)
    requires 0 <= index < |items|
    ensures var r := RemoveItem(items, index);
            && (forall j :: 0 <= j < index ==> r[j] == items[j])
            && (forall j :: index <= j < |r| ==> r[j] == items[j + 1])
            && multiset(r) + multiset{items[index]} == multiset(items)
  {
    assert items == items[..index] + [items[index]] + items[index + 1..];
  }

  /** `handleSaveReceipt`: an error when there is nothing to save, otherwise one draft per item. */
  function SaveReceipt(data: Option<Receipt>, duration: Field, now: Instant, parseDate: string -> Instant): (r: Option<seq<Draft>>)
    ensures r.None? <==> data.None? || |data.value.items| == 0
    ensures r.Some? ==> |r.value| == |data.value.items|
  {
    match data
    case None => None
    case Some(receipt) =>
      if |receipt.items| == 0 then None
      else
        var date := if receipt.date != "" then parseDate(receipt.date) else now;
        Some(seq(|receipt.items|, i requires 0 <= i < |receipt.items| =>
          Draft(receipt.items[i].price, date, receipt.items[i].category, receipt.items[i].name, receipt.store,
                ParseDuration(duration))))
  }

  function Price(item: Item): real {
    item.price
  }

  /**
   * Each item becomes one draft, in item order: its price as the amount,
   * its category, its name as the description, the receipt's store as the
   * shop, the receipt's date (or now, without one), and the same duration
   * for all.
   */
  lemma SavedDrafts(receipt: Receipt, duration: Field, now: Instant, parseDate: string -> Instant)
    requires |receipt.items| > 0
    ensures var drafts := SaveReceipt(Some(receipt), duration, now, parseDate).value;
            forall i :: 0 <= i < |drafts| ==>
              && drafts[i].amount == receipt.items[i].price
              && drafts[i].category == receipt.items[i].category
              && drafts[i].description == receipt.items[i].name
              && drafts[i].shop == receipt.store
              && drafts[i].date == (if receipt.date == "" then now else parseDate(receipt.date))
              && drafts[i].duration == ParseDuration(duration)
  {
  }

  /** The drafts' amounts add up to the receipt's prices. */
  lemma {:induction false} SavedTotal(items: seq<Item>, drafts: seq<Draft>)
    requires |drafts| == |items|
    requires forall i :: 0 <= i < |items| ==> drafts[i].amount == items[i].price
    ensures Sum(drafts, DraftAmount) == Sum(items, Price)
  {
    if |items| > 0 {
      SavedTotal(items[1..], drafts[1..]);
    }
  }

  /**
   * Saving a receipt and adding its drafts, with the ids the clock gives,
   * appends one expense per item and takes the receipt's total off the
   * money left.
   */
  lemma SaveThenAdd(s: State, receipt: Receipt, duration: Field, now: Instant, parseDate: string -> Instant, ids: seq<int>)
    requires |receipt.items| > 0 && |ids| == |receipt.items|
    ensures var drafts := SaveReceipt(Some(receipt), duration, now, parseDate).value;
            var r := AddAll(s, drafts, ids);
            && |r.expenses| == |s.expenses| + |receipt.items|
            && r.expenses[..|s.expenses|] == s.expenses
            && r.budget.currentAmount == s.budget.currentAmount - Sum(receipt.items, Price)
  {
    var drafts := SaveReceipt(Some(receipt), duration, now, parseDate).value;
    SavedDrafts(receipt, duration, now, parseDate);
    AddAllAppends(s, drafts, ids);
    SavedTotal(receipt.items, drafts);
  }
}

=== FILE: records.dfy ===
/**
 * The records the application keeps: expenses and the budget.
 *
 * A field the source may leave `undefined` or `null` is the empty string
 * here (`category`, `description`, `shop`), which JavaScript treats the
 * same way in every test the core makes (`x || 'Inne'`, `filter(Boolean)`,
 * `x && x.includes(...)`).
 */
module Records {
  import opened Calendar

  /** How many days a purchase lasts: `null`, `parseInt`'s number, or `NaN` when the text is not a number. */
  datatype Duration = NoDuration | Days(days: int) | NotANumber

  /** An expense as the forms hand it to `addExpense`, before it gets its id. */
  datatype Draft = Draft(amount: real, date: Instant, category: string, description: string, shop: string, duration: Duration)

  /** A stored expense: the draft's fields and the id `addExpense` gives it. */
  datatype Expense = Expense(id: int, amount: real, date: Instant, category: string, description: string, shop: string, duration: Duration)

  /** `{ monthlyAmount, renewalDay, currentAmount }`. */
  datatype Budget = Budget(monthlyAmount: real, renewalDay: int, currentAmount: real)

  /** `{ ...draft, id }`. */
  function Stamp(d: Draft, id: int): (e: Expense)
    ensures e.id == id
    ensures Unstamp(e) == d
  {
    Expense(id, d.amount, d.date, d.category, d.description, d.shop, d.duration)
  }

  /** The fields of an expense other than its id. */
  function Unstamp(e: Expense): Draft {
    Draft(e.amount, e.date, e.category, e.description, e.shop, e.duration)
  }

  function Amount(e: Expense): real {
    e.amount
  }

  function Id(e: Expense): int {
    e.id
  }
}

=== FILE: renewal.dfy ===
/**
 * The budget period: a budget renews on day `renewalDay` of every month.
 * Both the forecast and the "days until renewal" counter derive the period
 * from today's date by the same rule, computed here once.
 */
module Renewal {
  import opened Calendar

  /** Months since year 0, so that consecutive months differ by one. */
  function MonthCount(c: CivilDate): int {
    12 * c.year + c.month
  }

  /**
   * The month whose renewal day opened the current period: today's month
   * when today is on or after the renewal day, otherwise the month before
   * (month -1 is December of the year before, as `new Date` reads it).
   */
  function OpeningMonth(today: CivilDate, renewalDay: int): int {
    if today.day >= renewalDay then today.month else today.month - 1
  }

  /** The renewal that opened the period containing the day `today`. */
  function PeriodStart(today: CivilDate, renewalDay: int): Instant {
    MkDate(today.year, OpeningMonth(today, renewalDay), renewalDay)
  }

  /**
   * The renewal that will close the period containing `today`: this month's
   * renewal day when today is before it, otherwise next month's; in both
   * cases the month after the opening one.
   */
  function PeriodEnd(today: CivilDate, renewalDay: int): Instant {
    MkDate(today.year, OpeningMonth(today, renewalDay) + 1, renewalDay)
  }

  /** The renewal that opened the current period. */
  function LastRenewal(renewalDay: int, now: Instant): Instant {
    PeriodStart(DateOf(now), renewalDay)
  }

  /** The renewal that will close the current period. */
  function NextRenewal(renewalDay: int, now: Instant): Instant {
    PeriodEnd(DateOf(now), renewalDay)
  }

  /** Whole days, rounded up, from `now` to the next renewal. */
  function DaysUntilRenewal(renewalDay: int, now: Instant): (r: int)
    ensures (r - 1) * DayMs < NextRenewal(renewalDay, now) - now <= r * DayMs
  {
    CeilDiv(NextRenewal(renewalDay, now) - now, DayMs)
  }

  /** Today's day number, written through the month it falls in. */
  lemma TodayInMonth(now: Instant)
    ensures DayIndex(now) == MonthStart(DateOf(now).year, DateOf(now).month) + DateOf(now).day - 1
  {
    var c := DateOf(now);
    MonthStartInYear(c.year, c.month);
  }

  /** Midnight of a day no later than today is no later than now. */
  lemma MidnightNotAfter(k: int, now: Instant)
    requires k <= DayIndex(now)
    ensures k * DayMs <= now
  {
    DayIndexBounds(now);
  }

  /** Midnight of a day after today is after now, and no more than `k - DayIndex(now)` days away. */
  lemma MidnightAfter(k: int, now: Instant)
    requires k > DayIndex(now)
    ensures now < k * DayMs
    ensures k * DayMs - now <= (k - DayIndex(now)) * DayMs
  {
    DayIndexBounds(now);
  }

  /** The day numbers of the period's two renewals, measured from the first of today's month. */
  lemma RenewalDays(renewalDay: int, now: Instant)
    requires 1 <= renewalDay <= 28
    ensures var c := DateOf(now);
            var first := MonthStart(c.year, c.month);
            && DayIndex(now) == first + c.day - 1
            && c.day <= DaysInMonth(c.year, c.month)
            && (c.day >= renewalDay ==>
                  && LastRenewal(renewalDay, now) == (first + renewalDay - 1) * DayMs
                  && NextRenewal(renewalDay, now) == (first + DaysInMonth(c.year, c.month) + renewalDay - 1) * DayMs)
            && (c.day < renewalDay ==>
                  && LastRenewal(renewalDay, now) < first * DayMs
                  && NextRenewal(renewalDay, now) == (first + renewalDay - 1) * DayMs)
  {
    var c := DateOf(now);
    TodayInMonth(now);
    if c.day >= renewalDay {
      RenewalDaysOnOrAfter(renewalDay, c);
    } else {
      RenewalDaysBefore(renewalDay, c);
    }
  }

  /** On or after the renewal day, the period runs from this month's renewal day to next month's. */
  lemma RenewalDaysOnOrAfter(renewalDay: int, c: CivilDate)
    requires 0 <= c.month < 12 && c.day >= renewalDay
    ensures var first := MonthStart(c.year, c.month);
            && PeriodStart(c, renewalDay) == (first + renewalDay - 1) * DayMs
            && PeriodEnd(c, renewalDay) == (first + DaysInMonth(c.year, c.month) + renewalDay - 1) * DayMs
  {
    MkDateNextMonth(c.year, c.month, renewalDay);
  }

  /** Before the renewal day, the period runs from last month's renewal day to this month's. */
  lemma RenewalDaysBefore(renewalDay: int, c: CivilDate)
    requires 0 <= c.month < 12 && c.day < renewalDay <= 28
    ensures var first := MonthStart(c.year, c.month);
            && PeriodStart(c, renewalDay) < first * DayMs
            && PeriodEnd(c, renewalDay) == (first + renewalDay - 1) * DayMs
  {
    MkDateLastMonth(c.year, c.month, renewalDay);
  }

  /** Day `d` of the month after `m`, counted from the first of `m`. */
  lemma MkDateNextMonth(y: int, m: int, d: int)
    requires 0 <= m < 12
    ensures MkDate(y, m + 1, d) == (MonthStart(y, m) + DaysInMonth(y, m) + d - 1) * DayMs
  {
    MonthStartNext(y, m);
  }

  /** Day `d` of the month before `m`, for `d` at most 28, falls before the first of `m`. */
  lemma MkDateLastMonth(y: int, m: int, d: int)
    requires 0 <= m < 12 && d <= 28
    ensures MkDate(y, m - 1, d) < MonthStart(y, m) * DayMs
  {
    MonthStartPrevious(y, m);
  }

  /** A date built without day overflow lands on that day, in month `12 * y + m` counted from year 0. */
  lemma MkDateMonthCount(y: int, m: int, d: int)
    requires 1 <= d <= 28
    ensures DateOf(MkDate(y, m, d)).day == d
    ensures MonthCount(DateOf(MkDate(y, m, d))) == 12 * y + m
  {
    DateOfMkDate(y, m, d);
  }

  /** For a renewal day every month has, the period opens at or before now and closes after now. */
  lemma RenewalOrder(renewalDay: int, now: Instant)
    requires 1 <= renewalDay <= 28
    ensures LastRenewal(renewalDay, now) <= now < NextRenewal(renewalDay, now)
  {
    var c := DateOf(now);
    var first := MonthStart(c.year, c.month);
    RenewalDays(renewalDay, now);
    if c.day >= renewalDay {
      MidnightNotAfter(first + renewalDay - 1, now);
      MidnightAfter(first + DaysInMonth(c.year, c.month) + renewalDay - 1, now);
    } else {
      MidnightNotAfter(first, now);
      MidnightAfter(first + renewalDay - 1, now);
    }
  }

  /** The period opens on the renewal day of today's month, or of the month before when today is earlier. */
  lemma LastRenewalDate(renewalDay: int, now: Instant)
    requires 1 <= renewalDay <= 28
    ensures DateOf(LastRenewal(renewalDay, now)).day == renewalDay
    ensures MonthCount(DateOf(LastRenewal(renewalDay, now)))
         == MonthCount(DateOf(now)) - (if DateOf(now).day >= renewalDay then 0 else 1)
  {
    var c := DateOf(now);
    MkDateMonthCount(c.year, OpeningMonth(c, renewalDay), renewalDay);
  }

  /** The period closes on the renewal day of the month after today's, or of today's month when today is earlier. */
  lemma NextRenewalDate(renewalDay: int, now: Instant)
    requires 1 <= renewalDay <= 28
    ensures DateOf(NextRenewal(renewalDay, now)).day == renewalDay
    ensures MonthCount(DateOf(NextRenewal(renewalDay, now)))
         == MonthCount(DateOf(now)) + (if DateOf(now).day >= renewalDay then 1 else 0)
  {
    var c := DateOf(now);
    MkDateMonthCount(c.year, OpeningMonth(c, renewalDay) + 1, renewalDay);
  }

  /**
   * For a renewal day every month has, the period brackets now: it opens on
   * the renewal day of one month, at or before now, and closes after now
   * on the renewal day of the month that follows.
   */
  lemma RenewalBracketsNow(renewalDay: int, now: Instant)
    requires 1 <= renewalDay <= 28
    ensures LastRenewal(renewalDay, now) <= now < NextRenewal(renewalDay, now)
    ensures DateOf(LastRenewal(renewalDay, now)).day == renewalDay
    ensures DateOf(NextRenewal(renewalDay, now)).day == renewalDay
    ensures MonthCount(DateOf(NextRenewal(renewalDay, now)))
         == MonthCount(DateOf(LastRenewal(renewalDay, now))) + 1
  {
    RenewalOrder(renewalDay, now);
    LastRenewalDate(renewalDay, now);
    NextRenewalDate(renewalDay, now);
  }

  /** With a renewal day every month has, the counter shows between 1 and 31 days. */
  lemma DaysUntilRenewalBounds(renewalDay: int, now: Instant)
    requires 1 <= renewalDay <= 28
    ensures 1 <= DaysUntilRenewal(renewalDay, now) <= 31
  {
    var c := DateOf(now);
    var first := MonthStart(c.year, c.month);
    RenewalDays(renewalDay, now);
    MonthLengths(c.year, c.month);
    var nextDay := if c.day >= renewalDay then first + DaysInMonth(c.year, c.month) + renewalDay - 1
                   else first + renewalDay - 1;
    MidnightAfter(nextDay, now);
    assert nextDay - DayIndex(now) <= 31;
  }

  /**
   * Renewal days past the 28th are not clamped: with renewal day 30, at any
   * moment of 1 March of a common year the period is taken to open on
   * "30 February", which is 2 March, the day after today.
   */
  lemma LateRenewalDayOpensAfterToday(y: int, now: Instant)
    requires !IsLeap(y)
    requires MkDate(y, 2, 1) <= now < MkDate(y, 2, 2)
    ensures LastRenewal(30, now) == MkDate(y, 2, 2)
    ensures LastRenewal(30, now) > now
  {
    MonthStartInYear(y, 1);
    MonthStartInYear(y, 2);
    assert DayIndex(now) == DayNumber(y, 2, 1);
    DayOfMonthStart(y, 2, 1);
    assert DateOf(now) == CivilDate(y, 2, 1);
    assert LastRenewal(30, now) == MkDate(y, 1, 30);
    assert MonthStart(y, 1) + 29 == MonthStart(y, 2) + 1;
  }
}

=== FILE: text.dfy ===
/**
 * The string operations the budget code relies on: `toLowerCase` and
 * `toUpperCase` over the letters the application's Polish texts use,
 * `includes`, `String(n)` for integers and `padStart(2, '0')`.
 */
module Text {

  // ---------------------------------------------------------------------
  // Case mapping

  predicate IsAsciiUpper(c: char) {
    'A' <= c <= 'Z'
  }

  predicate IsAsciiLower(c: char) {
    'a' <= c <= 'z'
  }

  /** The nine Polish letters outside ASCII, capital and small: Ą Ć Ę Ł Ń Ó Ś Ź Ż. */
  predicate IsPolishUpper(c: char) {
    c in {'\U{0104}', '\U{0106}', '\U{0118}', '\U{0141}', '\U{0143}', '\U{00D3}', '\U{015A}', '\U{0179}', '\U{017B}'}
  }

  predicate IsPolishLower(c: char) {
    c in {'\U{0105}', '\U{0107}', '\U{0119}', '\U{0142}', '\U{0144}', '\U{00F3}', '\U{015B}', '\U{017A}', '\U{017C}'}
  }

  /** `toLowerCase` of one character, for ASCII and the Polish letters. */
  function LowerChar(c: char): char {
    if IsAsciiUpper(c) then (c as int + 32) as char
    else if c == '\U{0104}' then '\U{0105}'
    else if c == '\U{0106}' then '\U{0107}'
    else if c == '\U{0118}' then '\U{0119}'
    else if c == '\U{0141}' then '\U{0142}'
    else if c == '\U{0143}' then '\U{0144}'
    else if c == '\U{00D3}' then '\U{00F3}'
    else if c == '\U{015A}' then '\U{015B}'
    else if c == '\U{0179}' then '\U{017A}'
    else if c == '\U{017B}' then '\U{017C}'
    else c
  }

  /** `toUpperCase` of one character, for ASCII and the Polish letters. */
  function UpperChar(c: char): char {
    if IsAsciiLower(c) then (c as int - 32) as char
    else if c == '\U{0105}' then '\U{0104}'
    else if c == '\U{0107}' then '\U{0106}'
    else if c == '\U{0119}' then '\U{0118}'
    else if c == '\U{0142}' then '\U{0141}'
    else if c == '\U{0144}' then '\U{0143}'
    else if c == '\U{00F3}' then '\U{00D3}'
    else if c == '\U{015B}' then '\U{015A}'
    else if c == '\U{017A}' then '\U{0179}'
    else if c == '\U{017C}' then '\U{017B}'
    else c
  }

  function ToLower(s: string): (r: string)
    ensures |r| == |s|
    ensures forall i :: 0 <= i < |s| ==> r[i] == LowerChar(s[i])
  {
    seq(|s|, i requires 0 <= i < |s| => LowerChar(s[i]))
  }

  function ToUpper(s: string): (r: string)
    ensures |r| == |s|
    ensures forall i :: 0 <= i < |s| ==> r[i] == UpperChar(s[i])
  {
    seq(|s|, i requires 0 <= i < |s| => UpperChar(s[i]))
  }

  /** A small letter is left alone by `toLowerCase`, and upper-casing it then lower-casing it gives it back. */
  lemma LowerOfLower(c: char)
    requires IsAsciiLower(c) || IsPolishLower(c)
    ensures LowerChar(c) == c
    ensures LowerChar(UpperChar(c)) == c
  {
  }

  /** Lower-casing twice is lower-casing once. */
  lemma ToLowerIdempotent(s: string)
    ensures ToLower(ToLower(s)) == ToLower(s)
  {
  }

  /** Changing the case of a letter and then mapping it to one case gives that case of the letter. */
  lemma CaseOfCase(c: char)
    ensures UpperChar(LowerChar(c)) == UpperChar(c)
    ensures LowerChar(UpperChar(c)) == LowerChar(c)
    ensures UpperChar(UpperChar(c)) == UpperChar(c)
  {
  }

  // ---------------------------------------------------------------------
  // `includes`

  predicate IsPrefix(t: string, s: string) {
    |t| <= |s| && s[..|t|] == t
  }

  /** A copy of `t` starts at position `i` of `s`. */
  predicate OccursAt(t: string, s: string, i: int) {
    0 <= i <= |s| - |t| && s[i..i + |t|] == t
  }

  /** `t` occurs somewhere in `s`. */
  ghost predicate Occurs(t: string, s: string) {
    exists i :: OccursAt(t, s, i)
  }

  /** `s.includes(t)`, scanning from the left. */
  function Includes(s: string, t: string): bool {
    if IsPrefix(t, s) then true
    else if |s| == 0 then false
    else Includes(s[1..], t)
  }

  /** `includes` answers whether `t` occurs in `s`, in both directions. */
  lemma {:induction false} IncludesOccurs(s: string, t: string)
    ensures Includes(s, t) <==> Occurs(t, s)
  {
    if IsPrefix(t, s) {
      assert OccursAt(t, s, 0);
    } else if |s| > 0 {
      IncludesOccurs(s[1..], t);
      if Includes(s[1..], t) {
        var i :| OccursAt(t, s[1..], i);
        OccursInTail(s, t, i + 1);
      } else {
        forall i
          ensures !OccursAt(t, s, i)
        {
          if 0 < i <= |s| - |t| {
            OccursInTail(s, t, i);
          }
        }
      }
    } else {
      forall i
        ensures !OccursAt(t, s, i)
      {
      }
    }
  }

  /** A copy of `t` at position `i > 0` of `s` is a copy at position `i - 1` of its tail. */
  lemma OccursInTail(s: string, t: string, i: int)
    requires 0 < i && |s| > 0
    ensures OccursAt(t, s, i) <==> OccursAt(t, s[1..], i - 1)
  {
    if 0 < i <= |s| - |t| {
      assert s[i..i + |t|] == s[1..][i - 1..i - 1 + |t|];
    }
  }

  /** The empty string occurs in every string. */
  lemma IncludesEmpty(s: string)
    ensures Includes(s, "")
  {
    assert s[0..0] == "";
  }

  // ---------------------------------------------------------------------
  // Decimal numbers

  predicate IsDigit(c: char) {
    '0' <= c <= '9'
  }

  predicate AllDigits(s: string) {
    forall i :: 0 <= i < |s| ==> IsDigit(s[i])
  }

  function DigitChar(d: int): char
    requires 0 <= d < 10
  {
    (48 + d) as char
  }

  /** `String(n)` for a natural number: its decimal digits, without leading zeros. */
  function NatToString(n: nat): (r: string)
    ensures |r| >= 1 && AllDigits(r)
    ensures n > 0 ==> r[0] != '0'
    decreases n
  {
    if n < 10 then [DigitChar(n)] else NatToString(n / 10) + [DigitChar(n % 10)]
  }

  /** `String(n)` for any integer. */
  function IntToString(n: int): string {
    if n < 0 then "-" + NatToString(-n) else NatToString(n)
  }

  /** The number a string of decimal digits spells. */
  function DigitsValue(s: string): (n: nat)
    requires AllDigits(s)
  {
    if |s| == 0 then 0 else 10 * DigitsValue(s[..|s| - 1]) + (s[|s| - 1] as int - 48)
  }

  /** Reading back the digits of `String(n)` gives `n`. */
  lemma {:induction false} NatToStringValue(n: nat)
    ensures DigitsValue(NatToString(n)) == n
    decreases n
  {
    if n >= 10 {
      var r := NatToString(n);
      assert r[..|r| - 1] == NatToString(n / 10);
      NatToStringValue(n / 10);
    }
  }

  /** How many digits `String(n)` has, for one to four digits. */
  lemma NatToStringLength(n: nat)
    ensures n < 10 ==> |NatToString(n)| == 1
    ensures 10 <= n < 100 ==> |NatToString(n)| == 2
    ensures 100 <= n < 1000 ==> |NatToString(n)| == 3
    ensures 1000 <= n < 10000 ==> |NatToString(n)| == 4
  {
    if n >= 10 {
      NatToStringLength(n / 10);
    }
  }

  /** `s.padStart(2, '0')`. */
  function Pad2(s: string): (r: string)
    ensures |s| >= 2 ==> r == s
    ensures |s| < 2 ==> |r| == 2 && r[2 - |s|..] == s && forall i :: 0 <= i < 2 - |s| ==> r[i] == '0'
  {
    if |s| >= 2 then s else seq(2 - |s|, _ => '0') + s
  }

  /** A number below 100 printed with `padStart(2, '0')` is two digits that read back as the number. */
  lemma Pad2Digits(n: nat)
    requires n < 100
    ensures |Pad2(NatToString(n))| == 2
    ensures AllDigits(Pad2(NatToString(n)))
    ensures DigitsValue(Pad2(NatToString(n))) == n
  {
    NatToStringLength(n);
    NatToStringValue(n);
    var s := NatToString(n);
    if n < 10 {
      var p := Pad2(s);
      assert p == ['0', DigitChar(n)];
      assert p[..1] == ['0'];
    }
  }
}

=== FILE: wrappers.dfy ===
/** Optional values: JavaScript's `null`/`undefined` next to a present value. */
module Wrappers {

  datatype Option<+T> = None | Some(value: T)
}
